=== FILE: README.md ===
# A verified model of the parser's Rust core

The Rust side of the library parses HTML or XML with html5ever/xml5ever into
a reference-counted DOM (`RcDom`). It then flattens that DOM into a *wire
document*: a pre-order array of node records that refer to each other by
position, plus one shared string table that every name and value points
into. This project models that pipeline in Dafny and proves what it
promises. It covers:

- **Interning** (`interner.dfy`, `rs_lib/src/interner.rs`): the
  append-only string table, its find-or-append `intern`, the verbatim
  `extend`, and the default and extended seeds.
- **Wire** (`wire.dfy`, `rs_lib/src/wire.rs`): the node-type numbering, the
  `WireAttr`/`WireNode`/`WireDoc` records, and what well-formed means for
  them. All indices must lie within the string table or the node array.
- **Flatten** (`flatten.dfy`, `rs_lib/src/lib.rs`): `collect`,
  `intern_qual`, `intern_qual_local` and `serialize_dom`. The parsed tree
  that `collect` walks is an immutable `Tree`. The walk threads the
  interner and the growing record array through a recursive method. The
  relational predicate `Encodes` says that a block of records holds a
  subtree in pre-order, with every string resolving to what the node holds.
- **Mime** and **Options** (`mime.dfy`, `options.dfy`, `rs_lib/src/lib.rs`):
  `normalized_mime`, `is_html_mime`, the option defaults, and the
  conversion into the tree builder's options.
- **RcDom** (`rcdom.dfy`, `rs_lib/src/rcdom.rs`): the tree sink. It is an
  arena `map<NodeId, Node>` in which parent and child links are ids, and
  every operation is a function from one DOM to a `Result`. A Rust panic
  becomes a `Failure` naming the panic. `Valid` is the parent/children
  agreement the code asserts on: a node's parent is `p` exactly when `p`
  lists it, and lists it once.
- **Quirks** (`quirks_mode.dfy`, `rs_lib/src/quirks_mode.rs`): the three
  document modes of section 4.5 ("Interface Document") of the WHATWG DOM
  Standard, the forgiving parser, the printers, and the conversion to the
  tree builder's enum.

`text.dfy` models the two standard-library string operations the code
relies on:

- `str::trim`, which strips Unicode White_Space characters from both ends;
- lowercasing, restricted to ASCII.

`seqs.dfy` holds `Iterator::position`, `Vec::remove` and `Vec::insert`.
`markup.dfy` declares html5ever's `QualName`, `Attribute` and
`QuirksMode`.

Where the code and its documentation disagree, the model follows the code.
The options table in the doc comment at `rs_lib/src/lib.rs:148` gives
`"text/html"` as the default `contentType`. `ParseOptions::default` uses
`normalized_mime("")`, which is `"application/xml"`, and
`Options.DefaultParseOptions` states that value. The one place where the
model departs from the code is the doctype value listed under "Findings":
the code as written is modelled and its defect exhibited, and the
flattener then emits the corrected value (see "Left out").

## Model

| member | source | states |
|---|---|---|
| Interning.New | rs_lib/src/interner.rs:96-98 | A new interner holds no strings. |
| Interning.Extend | rs_lib/src/interner.rs:139-147 | The table becomes the old table followed by every given string, in order, duplicates included. Its length grows by the number of strings. |
| Interning.Seed | rs_lib/src/interner.rs:100-104 | A seeded interner's table is exactly the given strings. |
| Interning.Intern | rs_lib/src/interner.rs:153-162 | The returned index resolves to the string and no earlier entry equals it. The old table is a prefix of the new one. A present string leaves the interner unchanged; an absent one is appended and gets the old length as its index. |
| Interning.InternIdempotent | rs_lib/src/interner.rs:156-157 | Interning the same string a second time returns the same index and leaves the table unchanged. |
| Interning.InternStable | rs_lib/src/interner.rs:153-162 | An index stays valid: after another string is interned, the first string still gets its original index. |
| Interning.InternDistinct | rs_lib/src/interner.rs:78 | Two different strings get different indices, and both still resolve. |
| Interning.InternGrowth | rs_lib/src/interner.rs:156-161 | The table grows by exactly one entry when the string was absent, and not at all otherwise. |
| Interning.InternFindsFirst | rs_lib/src/interner.rs:156 | When the table already holds the string, possibly several times after `extend`, the index returned is no later than any occurrence and nothing is appended. |
| Interning.DefaultSeed | rs_lib/src/interner.rs:106-112 | The default seed's table is exactly the 24 default strings, in order. |
| Interning.ExtendedSeed | rs_lib/src/interner.rs:114-137 | The extended seed's table is the 24 default strings followed by the 20 extra ones, in order. |
| Interning.Default | rs_lib/src/interner.rs:165-169 | The default interner's table is exactly the default seed's 24 strings, with `""` at index 0 and `"html"` at index 1. |
| Interning.IntoStrings | rs_lib/src/interner.rs:149-151 | Seeding an interner with the exported strings gives the same interner back, so the table is handed out unchanged. Every exported string interns without growing the table, to an index no later than its position. |
| Interning.ExtendedSeedTable | rs_lib/src/interner.rs:114-137 | The extended seed has 44 entries and starts with the whole default seed. |
| Interning.DocumentedUsage | rs_lib/src/interner.rs:77-80 | On the default interner, `"hello"` twice gives one index and `"world"` gives another. Both indices resolve to their strings. |
| Wire.Repr | rs_lib/src/wire.rs:24-38 | Every node type's `u8` discriminant lies in 1..12. |
| Wire.FromRepr | rs_lib/src/wire.rs:11-23 | Decoding a byte succeeds exactly for 1..12. |
| Wire.ReprRoundTrip | rs_lib/src/wire.rs:11-38 | Encoding then decoding gives the node type back, and decoding then encoding gives the byte back. |
| Wire.ReprBijective | rs_lib/src/wire.rs:24-38 | Distinct node types have distinct numbers, and every number in 1..12 is used. |
| Wire.DomStandardNumbers | rs_lib/src/wire.rs:24-38 | All twelve numbers match the DOM Standard's `nodeType` constants: Element 1, Attribute 2, Text 3, CData 4, EntityReference 5, Entity 6, ProcessingInstruction 7, Comment 8, Document 9, DocumentType 10, DocumentFragment 11, Notation 12. The derived default is Element. |
| Seqs.IndexOf | rs_lib/src/interner.rs:156 | The position found holds the element and no earlier position does. There is none exactly when the element is absent. |
| Seqs.RemoveAt | rs_lib/src/rcdom.rs:178 | One entry is dropped and the rest keep their order. |
| Seqs.InsertAt | rs_lib/src/rcdom.rs:347 | The element lands at the index and the rest keep their order around it. |
| Mime.NormalizedMime | rs_lib/src/lib.rs:423-432 | Every input maps to one of the four canonical types. |
| Mime.NormalizedMimeIdempotent | rs_lib/src/lib.rs:423-432 | Normalising a normalised type changes nothing. |
| Mime.IsHtmlMime | rs_lib/src/lib.rs:419-421 | The HTML parser is chosen exactly when the trimmed, lowercased type is one of the six HTML or XHTML spellings. |
| Mime.EmptyMimeIsXml | rs_lib/src/lib.rs:407-409 | The empty type normalises to `application/xml`, which does not select the HTML parser. |
| Mime.NormalizedMimeInsensitive | rs_lib/src/lib.rs:424 | Normalisation ignores ASCII case and surrounding whitespace. |
| Options.DefaultParseOptions | rs_lib/src/lib.rs:166-176 | Default options: exact errors and scripting on, no srcdoc, doctype kept. Parsing `"no-quirks"` gives `NoQuirks`, the enum's default. The content type is `application/xml`, which is not an HTML type. |
| Options.DefaultFragmentParseOptions | rs_lib/src/lib.rs:188-199 | Fragment defaults equal the document defaults except that the doctype is dropped. The context element is `"div"`. |
| Options.ToTreeBuilderOpts | rs_lib/src/lib.rs:202-221 | Converting the tree builder's quirks mode back gives the option's mode. |
| Options.TreeBuilderOptsKeepFlags | rs_lib/src/lib.rs:202-221 | The conversion copies every flag and keeps the quirks mode's variant. |
| Quirks.Display | rs_lib/src/quirks_mode.rs:60-68 | Only `"quirks"`, `"limited-quirks"` and `"no-quirks"` are ever printed. |
| Quirks.FromStr | rs_lib/src/quirks_mode.rs:70-80 | Parsing never fails. The result is `Quirks` exactly for the four quirks synonyms and `LimitedQuirks` exactly for the four limited synonyms, both after lowercasing and trimming. Anything else is `NoQuirks`. |
| Quirks.Repr | rs_lib/src/quirks_mode.rs:34-38 | The discriminants exposed to JavaScript: `Quirks` is 0, `LimitedQuirks` 1 and `NoQuirks` 2, each exactly. |
| Quirks.FromRepr | rs_lib/src/quirks_mode.rs:29-38 | Only 0, 1 and 2 convert to a mode. |
| Quirks.ReprRoundTrip | rs_lib/src/quirks_mode.rs:29-38 | Discriminant and mode convert into each other in both directions. |
| Quirks.DisplayRoundTrip | rs_lib/src/quirks_mode.rs:51-80 | Parsing the printed form of a mode gives the mode back. |
| Quirks.Debug | rs_lib/src/quirks_mode.rs:41-49 | `Debug` prints the same text as `Display`. |
| Quirks.FromString | rs_lib/src/quirks_mode.rs:51-58 | The conversion from a string gives `Quirks` exactly for the four quirks synonyms and `LimitedQuirks` exactly for the four limited synonyms, both after lowercasing and trimming, and `NoQuirks` for anything else. |
| Quirks.ToServo | rs_lib/src/quirks_mode.rs:83-91 | `FromServo` undoes the conversion, so no two modes map to the same tree-builder mode. |
| Quirks.ParseIgnoresCase | rs_lib/src/quirks_mode.rs:75 | Lowercasing the input does not change the parsed mode. |
| Quirks.ParseIgnoresSurroundingWhitespace | rs_lib/src/quirks_mode.rs:75 | Whitespace around the input does not change the parsed mode. |
| Quirks.ToServoBijective | rs_lib/src/quirks_mode.rs:83-91 | The conversion to the tree builder's enum is a variant-preserving bijection. |
| Flatten.QuirksString | rs_lib/src/lib.rs:246-250 | The document's quirks string is the `Display` spelling of the same mode, so parsing it gives the tree builder's mode back. |
| Flatten.DoctypeValueShape | rs_lib/src/lib.rs:294-322 | For a non-empty name with no surrounding whitespace, the corrected doctype value is the name followed by the quoted ids that are present. It begins with the name, and when an id is present it ends with a closing quote. |
| Flatten.AsWrittenDoctypeUnclosed | rs_lib/src/lib.rs:304-315 | With name `a` and public id `b`, the value as written is `a PUBLIC "b` with its quote left open, where the corrected value is `a PUBLIC "b"`. |
| Flatten.AsWrittenAgreesOnlyWithoutIds | rs_lib/src/lib.rs:294-322 | For a non-empty name with no surrounding whitespace, the value as written equals the corrected value exactly when neither id is present. |
| Flatten.InternQual | rs_lib/src/lib.rs:384-398 | The table only grows. The index returned names `prefix:local`, or `local` when the prefix is absent or empty. The namespace (when not empty) and the local name are interned along the way. |
| Flatten.InternQualLocal | rs_lib/src/lib.rs:400-405 | The index names the local part alone. |
| Flatten.InternAttr | rs_lib/src/lib.rs:345-355 | The wire attribute resolves to the local name and the value. Its namespace index is absent exactly when the namespace is empty, and otherwise resolves to it. |
| Flatten.InternAttrs | rs_lib/src/lib.rs:343-358 | The wire attributes resolve one by one, in order, to the element's attributes. |
| Flatten.OptionalAttr | rs_lib/src/lib.rs:304-321 | An id attribute is emitted, with its key and value resolving, exactly when it is present. |
| Flatten.DoctypeAttrs | rs_lib/src/lib.rs:297-321 | A doctype's attribute list is `name` first, then `publicId` and `systemId` when their ids are not empty. Each entry resolves to its key and value. |
| Flatten.EmitDoctype | rs_lib/src/lib.rs:287-323 | The doctype record has type DocumentType, its name and value resolve, and the attribute list resolves as above. |
| Flatten.EmitElement | rs_lib/src/lib.rs:339-359 | The element record's name resolves to the qualified name and it has no value. Its attribute list is absent exactly when the element has no attributes, and otherwise resolves to them in order. |
| Flatten.EmitLeaf | rs_lib/src/lib.rs:324-338 | Text, comment and processing-instruction records carry their name and contents and no attributes. |
| Flatten.EmitRecord | rs_lib/src/lib.rs:270-360 | One record encodes its node. The id is the position and the type is the DOM node type. The Document has no parent and is named `#document`, text is `#text` and comment is `#comment`. The value and attributes resolve to what the node holds. No child or sibling link is set yet. |
| Flatten.Link | rs_lib/src/lib.rs:369-377 | After child `j` the parent's `firstChild` is set for the first child, and otherwise the previous child's `nextSibling`. No other record changes. |
| Flatten.Collect | rs_lib/src/lib.rs:263-382 | The returned id is the array length at the call, so ids go in pre-order. Earlier records are untouched and the table only grows. The new block has one record per node of the subtree and encodes the subtree. Its first child is the next position, its children form a sibling chain, and every child names the caller as parent. |
| Flatten.VisitChild | rs_lib/src/lib.rs:366-379 | One turn of the children loop: the child's block follows the earlier ones and the link to it is written. The encoding of the children so far grows by one. |
| Flatten.EncodesFlat | rs_lib/src/lib.rs:269-362 | In an encoded block every record's id equals its position, and every link and string index lies within the arrays. |
| Flatten.SiblingChainListsChildren | rs_lib/src/lib.rs:366-379 | Following `nextSibling` from a record's `firstChild` visits exactly its children's positions, in order, and then stops. |
| Flatten.SerializeDom | rs_lib/src/lib.rs:238-261 | The wire document records the content type and the quirks string. Its string table starts with the default seed. It has one record per node, encodes the whole tree from position 0, and every id equals its position. It is well formed: every index lies within `strings` or `nodes`. |
| RcDom.Default | rs_lib/src/rcdom.rs:434-441 | The initial DOM is a lone Document node with no parent and no children, in no-quirks mode, and it satisfies the invariant. |
| RcDom.NewNode | rs_lib/src/rcdom.rs:123-129 | A new node has a fresh id, no parent and no children. Nothing else changes. |
| RcDom.NewNodeValid | rs_lib/src/rcdom.rs:123-129 | Allocation keeps the parent/children invariant. |
| RcDom.ParentIffListedOnce | rs_lib/src/rcdom.rs:159-174 | Under the invariant a node's parent is `p` exactly when `p`'s children list it exactly once. |
| RcDom.GetParentAndIndex | rs_lib/src/rcdom.rs:159-174 | A parentless node gives nothing. Otherwise the result is the parent and a position where the parent lists the node. |
| RcDom.GetParentAndIndexTotal | rs_lib/src/rcdom.rs:171 | Under the invariant the "couldn't find in parent's children" panic cannot happen. |
| RcDom.RemoveFromParent | rs_lib/src/rcdom.rs:176-181 | The parent's list loses exactly the node's entry, the others keeping their order, and the node's parent is cleared. No other node changes: every node keeps its data, only the node gets a new parent, and only its old parent a new list. The document and quirks mode are kept. A parentless node is left alone. |
| RcDom.RemoveFromParentValid | rs_lib/src/rcdom.rs:176-181 | Under the invariant removal never panics, keeps the invariant, and leaves the node listed nowhere. |
| RcDom.AppendChild | rs_lib/src/rcdom.rs:185-196 | It fails exactly when the child already has a parent. Otherwise the child becomes the parent's new last child, earlier children unchanged, and names the parent. Nothing else changes: the document and quirks mode are kept, every node keeps its data, only the child gets a new parent, and only the parent a new list. |
| RcDom.AppendChildValid | rs_lib/src/rcdom.rs:185-196 | Appending a parentless node keeps the invariant. |
| RcDom.AppendToExistingText | rs_lib/src/rcdom.rs:198-206 | It reports success exactly on a text node, whose contents gain the text, and the rest of the DOM, including the document and quirks mode, is unchanged. Any other node leaves the DOM as it was. |
| RcDom.SinkAppend | rs_lib/src/rcdom.rs:296-312 | Text after a trailing text child is concatenated onto that child, and the rest of the DOM is unchanged. Other text becomes a fresh text node, the parent's new last child, naming the parent; the parent's other fields, every other node, the document and the quirks mode are unchanged. A node is appended as `append` does. |
| RcDom.SinkAppendValid | rs_lib/src/rcdom.rs:296-312 | Under the invariant it fails only for a node that already has a parent, and otherwise keeps the invariant. |
| RcDom.AppendBeforeSibling | rs_lib/src/rcdom.rs:314-348 | It fails when the sibling has no parent. On success no node is lost and the document is kept. |
| RcDom.AppendBeforeSiblingValid | rs_lib/src/rcdom.rs:314-348 | Under the invariant it panics exactly when the sibling has no parent, and otherwise keeps the invariant. |
| RcDom.AppendBeforeSiblingPlacesBefore | rs_lib/src/rcdom.rs:344-347 | A node from another parent lands directly before the sibling, the parent's other entries keep their order, and the node names the new parent. Its old parent's list loses exactly its entry. Nothing else changes: every node keeps its data, only the node gets a new parent, and only the two parents new lists. The document and quirks mode are kept. |
| RcDom.AppendBeforeSiblingText | rs_lib/src/rcdom.rs:319-335 | Text merges into a text node just before the sibling when the index is above 0, and no other node changes. Otherwise a fresh text node is inserted at the sibling's index, which always happens at index 0. In that case no existing node changes its data or parent, and only the parent gets a new list. In both cases the document and quirks mode are kept. |
| RcDom.AppendBeforeSiblingSameParent | rs_lib/src/rcdom.rs:314-347 | For a node at position `k` in the sibling's parent, with the sibling at `i`, the node is removed and reinserted at `i`, the index taken before the removal. An earlier node (`k < i`) ends up just after the sibling, a later one (`k > i`) just before it, and the node itself (`k == i`) leaves the list unchanged. Nothing else changes: every node keeps its data and parent, and only the parent gets a new list. The document and quirks mode are kept. |
| RcDom.InsertDetached | rs_lib/src/rcdom.rs:344-347 | On success no node is added or lost, the node sits at the index and names the parent. Its old parent's list loses exactly its entry, before the insertion when both parents are the same. For a parentless node it succeeds exactly when the index is within the list, and the list is the old one with the node inserted at the index. Nothing else changes: every node keeps its data, only the node gets a new parent, and only the old and new parents new lists. The document and quirks mode are kept. |
| RcDom.InsertDetachedValid | rs_lib/src/rcdom.rs:344-347 | Detaching and then inserting at an index within the old list never panics and keeps the invariant. |
| RcDom.AppendBasedOnParentNode | rs_lib/src/rcdom.rs:350-366 | On success no node is lost. For a parentless element, text always succeeds, and a node succeeds exactly when it has no parent, becoming the previous element's last child and naming it. |
| RcDom.AppendBasedOnParentNodeValid | rs_lib/src/rcdom.rs:350-366 | It inserts before the element exactly when the element has a parent, and otherwise appends to the previous element. It fails only when that append is given a node that has a parent, and otherwise keeps the invariant. |
| RcDom.AppendDoctypeToDocument | rs_lib/src/rcdom.rs:368-379 | A fresh doctype node with the three strings becomes the document's last child. The earlier children are unchanged. Nothing else changes: every existing node keeps its data and parent, and only the document gets a new list. The quirks mode is kept. |
| RcDom.AppendDoctypeToDocumentValid | rs_lib/src/rcdom.rs:368-379 | Appending the doctype keeps the parent/children invariant. |
| RcDom.Missing | rs_lib/src/rcdom.rs:389-397 | Exactly the attributes whose names are not already present are kept, in their given order, each as many times as it was given. |
| RcDom.AddAttrsIfMissing | rs_lib/src/rcdom.rs:381-398 | It panics exactly on a non-element. Otherwise the existing attributes stay first, in order, followed by exactly the new attributes whose names were not present, in their given order and with their multiplicity. Nothing else in the DOM changes: other nodes, the document and the quirks mode are kept. |
| RcDom.CheckPreviousParents | rs_lib/src/rcdom.rs:407-414 | It reports no panic exactly when no child is listed twice and every child's previous parent is the node. A child already moved has the new parent as its previous parent, so its second visit panics. |
| RcDom.RepeatedChildPanics | rs_lib/src/rcdom.rs:407-414 | A child listed twice always makes the loop panic. |
| RcDom.ReparentChildren | rs_lib/src/rcdom.rs:404-416 | It panics when both nodes are the same, when a child is listed twice, or when some child's previous parent is not the node. Otherwise every child moves, in order, to the end of the new parent's list, the node is left childless, and the moved nodes name the new parent. Nothing else changes. |
| RcDom.ReparentChildrenValid | rs_lib/src/rcdom.rs:404-416 | Under the invariant it panics only when both nodes are the same, and otherwise keeps the invariant. |

## Left out

- Integer widths: indices and ids are unbounded `nat`, so the `as u32` truncation of node ids and string indices past 2^32 entries is not modelled.
- Lowercasing is modelled for ASCII letters only. Rust's `to_lowercase` is Unicode-aware, and some non-ASCII characters lowercase to ASCII letters: U+212A KELVIN SIGN becomes `k` and U+0130 becomes `i` followed by a combining dot. Rust therefore parses `"QUIR\u{212A}S"` as `Quirks`. The model leaves such characters unchanged, so it classifies inputs like that one as `NoQuirks` (or, for a content type, `application/xml`) where Rust may not.
- The wasm-bindgen entry points (`parse_doc`, `parse_html`, `parse_xml`, `parse_frag`) and the JavaScript option plumbing (`to_value`, `from_value`, `options_from_js_or_default`) are foreign-interface code.
- `parse_html_document`, `parse_html_fragment` and `parse_xml_like` are thin wrappers over html5ever and xml5ever, which are not part of this model. The tree `collect` walks is therefore an input datatype, and the quirks mode and content type are inputs of `Flatten.SerializeDom`.
- The step from the `RcDom` arena to the `Tree` that `collect` walks is not modelled; `collect` is stated on the tree directly.
- `SerializableHandle::serialize` drives a foreign serializer through `io::Result`.
- `Rc`, `Weak`, `RefCell` and `Cell` are replaced by the arena of ids. A borrow conflict is modelled only where it decides behaviour: `reparent_children` with one node as both arguments.
- `template_contents`, the MathML integration-point flag, `get_template_contents`, `elem_name`, `is_mathml_annotation_xml_integration_point`, the `errors` log, `create_element`, `create_comment`, `create_pi`, `same_node` and `set_quirks_mode` are left out. They are tree-builder hooks with no behaviour of their own beyond `Node::new`, which is `RcDom.NewNode`.
- Acyclicity of the DOM is not part of `RcDom.Valid`. The operations only ever move existing links, and the tree builder never asks for a cycle.
- The serde `Deserialize` impl for `QuirksMode` and the serde attributes on the wire structs are encoding-library behaviour.
- RcDom.AppendBeforeSibling: its own contract states only the failure case and that no node is lost. Placement, text merging and the invariant are stated by `RcDom.AppendBeforeSiblingPlacesBefore`, `RcDom.AppendBeforeSiblingText` and `RcDom.AppendBeforeSiblingValid`.
- Flatten.EmitRecord: a doctype record's value is the corrected `Flatten.DoctypeValue`, with each id's closing quote, and not the value the code builds (see "Findings"). The two agree exactly on doctypes without ids (`Flatten.AsWrittenAgreesOnlyWithoutIds`).
- Flatten.Collect: the doctype values in the records it emits are the corrected ones, as for `Flatten.EmitRecord`.
- Flatten.SerializeDom: the doctype values on the wire are the corrected ones, as for `Flatten.EmitRecord`.
- Flatten.Collect: a record's `nextSibling` into the next subtree is written by the caller. `Collect` therefore promises `None` for its root, and `Flatten.SiblingChainListsChildren` states the chain over a whole block.

## Findings

| source | as written | input that shows it | evidently intended | confidence | as-written member | corrected member |
|---|---|---|---|---|---|---|
| rs_lib/src/lib.rs:306 | The raw string `r#"PUBLIC "{public_id}"#` ends at `"#`, so the quote after the id is part of the delimiter and is never emitted (the same at line 315 for `SYSTEM`). | doctype name `a`, public id `b`, empty system id: the value is `a PUBLIC "b` | `a PUBLIC "b"`: the opening quote is emitted, so each id is meant to sit between a pair of quotes | high, not executed | Flatten.AsWrittenDoctypeUnclosed | Flatten.DoctypeValueShape |

=== FILE: flatten.dfy ===
/** The flattener: a depth-first walk of the parsed tree that emits one wire
    record per node in pre-order, links records by position, and names every
    string by its index in an interner seeded with the default table. */
module Flatten {
  import opened Wrappers
  import opened Text
  import opened Interning
  import opened Wire
  import Markup
  import RcDom
  import Quirks

  /** The tree `collect` walks: a node's data and its children in order. */
  datatype Tree = Tree(data: RcDom.NodeData, children: seq<Tree>)

  // ---------------------------------------------------------------------
  // What one record should say, with strings in place of indices

  /** The name `intern_qual` interns last: `prefix:local`, or `local` when
      there is no prefix or it is empty. */
  function QualString(q: Markup.QualName): string {
    var prefix := q.prefix.GetOr("");
    if prefix == "" then q.local else prefix + ":" + q.local
  }

  /** The node type each kind of node is emitted with. */
  function NodeTypeOf(data: RcDom.NodeData): WireNodeType {
    match data
    case Document => Wire.Document
    case Doctype(_, _, _) => DocumentType
    case Text(_) => Wire.Text
    case Comment(_) => Wire.Comment
    case ProcessingInstruction(_, _) => Wire.ProcessingInstruction
    case Element(_, _) => Wire.Element
  }

  /** The record's name, as the DOM Standard's `nodeName` gives it for the
      document, text and comment nodes (section 4.4). */
  function NodeName(data: RcDom.NodeData): string {
    match data
    case Document => "#document"
    case Doctype(name, _, _) => name
    case Text(_) => "#text"
    case Comment(_) => "#comment"
    case ProcessingInstruction(target, _) => target
    case Element(q, _) => QualString(q)
  }

  /** The doctype's value: the name, then `PUBLIC "id"` and `SYSTEM "id"`
      for the ids that are present, trimmed. */
  function DoctypeValue(name: string, publicId: string, systemId: string): string {
    Trim(name
         + (if publicId != "" then " PUBLIC \"" + publicId + "\"" else "")
         + (if systemId != "" then " SYSTEM \"" + systemId + "\"" else ""))
  }

  /** The doctype value as lib.rs builds it: each raw string's `"#`
      delimiter swallows the closing quote of the id. */
  function AsWrittenDoctypeValue(name: string, publicId: string, systemId: string): string {
    Trim(name
         + (if publicId != "" then " PUBLIC \"" + publicId else "")
         + (if systemId != "" then " SYSTEM \"" + systemId else ""))
  }

  /** For a name without surrounding whitespace, trimming cuts nothing: the
      value begins with the name, and when an id is present it ends with
      the quote that closes the last id. */
  lemma DoctypeValueShape(name: string, publicId: string, systemId: string)
    requires name != "" && Tight(name)
    ensures DoctypeValue(name, publicId, systemId)
            == name + (if publicId != "" then " PUBLIC \"" + publicId + "\"" else "")
                    + (if systemId != "" then " SYSTEM \"" + systemId + "\"" else "")
    ensures name <= DoctypeValue(name, publicId, systemId)
    ensures publicId != "" || systemId != "" ==> DoctypeValue(name, publicId, systemId)[|DoctypeValue(name, publicId, systemId)| - 1] == '"'
  {
    var raw := name + (if publicId != "" then " PUBLIC \"" + publicId + "\"" else "")
                    + (if systemId != "" then " SYSTEM \"" + systemId + "\"" else "");
    assert raw[0] == name[0];
    if publicId != "" || systemId != "" {
      assert raw[|raw| - 1] == '"';
    } else {
      assert raw == name;
    }
    TrimStable(raw);
  }

  /** As written, a doctype with only a public id gets a value whose
      opening quote is never closed, where the intended value closes it. */
  lemma AsWrittenDoctypeUnclosed()
    ensures AsWrittenDoctypeValue("a", "b", "") == "a PUBLIC \"b"
    ensures DoctypeValue("a", "b", "") == "a PUBLIC \"b\""
  {
    var raw := "a" + " PUBLIC \"" + "b";
    assert raw == "a PUBLIC \"b";
    assert "a" + " PUBLIC \"" + "b" + "" == raw;
    TrimStable(raw);
    DoctypeValueShape("a", "b", "");
    assert "a" + " PUBLIC \"" + "b" + "\"" + "" == "a PUBLIC \"b\"";
  }

  /** The value as written and the corrected value agree exactly on the
      doctypes without ids, such as `<!DOCTYPE html>`. */
  lemma AsWrittenAgreesOnlyWithoutIds(name: string, publicId: string, systemId: string)
    requires name != "" && Tight(name)
    ensures AsWrittenDoctypeValue(name, publicId, systemId) == DoctypeValue(name, publicId, systemId)
            <==> publicId == "" && systemId == ""
  {
    DoctypeValueShape(name, publicId, systemId);
    var raw := name + (if publicId != "" then " PUBLIC \"" + publicId else "")
                    + (if systemId != "" then " SYSTEM \"" + systemId else "");
    if publicId == "" && systemId == "" {
      assert raw == name + "" + "";
    } else {
      assert |AsWrittenDoctypeValue(name, publicId, systemId)| <= |raw| < |DoctypeValue(name, publicId, systemId)|;
    }
  }

  function NodeValue(data: RcDom.NodeData): Option<string> {
    match data
    case Document => None
    case Doctype(name, publicId, systemId) => Some(DoctypeValue(name, publicId, systemId))
    case Text(contents) => Some(contents)
    case Comment(contents) => Some(contents)
    case ProcessingInstruction(_, contents) => Some(contents)
    case Element(_, _) => None
  }

  /** A doctype always lists `name`, then `publicId` and `systemId` when present. */
  function DoctypeResolvedAttrs(name: string, publicId: string, systemId: string): seq<ResolvedAttr> {
    [ResolvedAttr(None, "name", name)]
    + (if publicId != "" then [ResolvedAttr(None, "publicId", publicId)] else [])
    + (if systemId != "" then [ResolvedAttr(None, "systemId", systemId)] else [])
  }

  /** An element attribute on the wire: no namespace when it is empty, and
      only the local part of the name. */
  function ResolvedAttrOf(a: Markup.Attribute): ResolvedAttr {
    ResolvedAttr(if a.name.ns == "" then None else Some(a.name.ns), a.name.local, a.value)
  }

  function ResolvedAttrsOf(attrs: seq<Markup.Attribute>): (rs: seq<ResolvedAttr>)
    ensures |rs| == |attrs| && forall k :: 0 <= k < |attrs| ==> rs[k] == ResolvedAttrOf(attrs[k])
  {
    if |attrs| == 0 then [] else [ResolvedAttrOf(attrs[0])] + ResolvedAttrsOf(attrs[1..])
  }

  function NodeAttrs(data: RcDom.NodeData): Option<seq<ResolvedAttr>> {
    match data
    case Doctype(name, publicId, systemId) => Some(DoctypeResolvedAttrs(name, publicId, systemId))
    case Element(_, attrs) => if |attrs| == 0 then None else Some(ResolvedAttrsOf(attrs))
    case _ => None
  }

  /** Record `w` encodes a node with `data` at position `id` under `parent`:
      every string it names resolves in `strings` to what the node holds. */
  ghost predicate NodeEncodes(strings: seq<string>, w: WireNode, data: RcDom.NodeData, id: nat, parent: Option<nat>) {
    && w.id == id
    && w.nodeType == NodeTypeOf(data)
    && w.parent == (if data.Document? then None else parent)
    && Resolves(strings, w.name, NodeName(data))
    && (if NodeValue(data).None? then w.value.None? else Resolves(strings, w.value, NodeValue(data).value))
    && (if NodeAttrs(data).None? then w.attrs.None?
        else w.attrs.Some? && AttrsResolve(strings, w.attrs.value, NodeAttrs(data).value))
  }

  /** A record's encoding survives growth of the string table at its end. */
  lemma NodeEncodesGrow(strings: seq<string>, more: seq<string>, w: WireNode, data: RcDom.NodeData, id: nat, parent: Option<nat>)
    requires NodeEncodes(strings, w, data, id, parent) && strings <= more
    ensures NodeEncodes(more, w, data, id, parent)
  {
    if NodeAttrs(data).Some? {
      AttrsResolveGrow(strings, more, w.attrs.value, NodeAttrs(data).value);
    }
  }

  // ---------------------------------------------------------------------
  // Interning, in the order lib.rs interns

  /** `Interner::intern` seen from the flattener: the table only grows and
      the index returned names the string. */
  function Put(i: Interner, s: string): (r: (Interner, nat))
    ensures i.table <= r.0.table
    ensures r.1 < |r.0.table| && r.0.table[r.1] == s
  {
    Intern(i, s)
  }

  /** `intern_qual`: interns the namespace when it is not empty, then the
      local name, then `prefix:local` when there is a prefix; the index
      returned names the qualified string. */
  function InternQual(q: Markup.QualName, i: Interner): (r: (Interner, nat))
    ensures i.table <= r.0.table
    ensures r.1 < |r.0.table| && r.0.table[r.1] == QualString(q)
    ensures q.ns != "" ==> q.ns in r.0.table
    ensures q.local in r.0.table
  {
    var prefix := q.prefix.GetOr("");
    var i1 := if q.ns != "" then Put(i, q.ns).0 else i;
    var (i2, localIdx) := Put(i1, q.local);
    if prefix != "" then Put(i2, prefix + ":" + q.local) else (i2, localIdx)
  }

  /** `intern_qual_local`: only the local name is interned and named. */
  function InternQualLocal(q: Markup.QualName, i: Interner): (r: (Interner, nat))
    ensures i.table <= r.0.table
    ensures r.1 < |r.0.table| && r.0.table[r.1] == q.local
  {
    Put(i, q.local)
  }

  /** One element attribute: namespace (when not empty), local name, value. */
  function InternAttr(a: Markup.Attribute, i: Interner): (r: (Interner, WireAttr))
    ensures i.table <= r.0.table
    ensures AttrResolves(r.0.table, r.1, ResolvedAttrOf(a))
  {
    var (i1, ns) := if a.name.ns == "" then (i, None) else (var (j, n) := Put(i, a.name.ns); (j, Some(n)));
    var (i2, name) := InternQualLocal(a.name, i1);
    var (i3, value) := Put(i2, a.value);
    (i3, WireAttr(ns, name, value))
  }

  /** The element's attributes, in order. */
  function InternAttrs(attrs: seq<Markup.Attribute>, i: Interner): (r: (Interner, seq<WireAttr>))
    ensures i.table <= r.0.table
    ensures AttrsResolve(r.0.table, r.1, ResolvedAttrsOf(attrs))
    decreases |attrs|
  {
    if |attrs| == 0 then (i, [])
    else
      var (i1, first) := InternAttr(attrs[0], i);
      var (i2, rest) := InternAttrs(attrs[1..], i1);
      AttrsResolveGrow(i1.table, i2.table, [first], [ResolvedAttrOf(attrs[0])]);
      AttrsResolveConcat(i2.table, [first], [ResolvedAttrOf(attrs[0])], rest, ResolvedAttrsOf(attrs[1..]));
      (i2, [first] + rest)
  }

  /** A namespace-less attribute `key="value"`, when `present`. */
  function OptionalAttr(present: bool, key: string, value: string, i: Interner): (r: (Interner, seq<WireAttr>))
    ensures i.table <= r.0.table
    ensures AttrsResolve(r.0.table, r.1, if present then [ResolvedAttr(None, key, value)] else [])
  {
    if !present then (i, [])
    else
      var (i1, k) := Put(i, key);
      var (i2, v) := Put(i1, value);
      (i2, [WireAttr(None, k, v)])
  }

  /** Resolved lists concatenate. */
  lemma AttrsResolveConcat(strings: seq<string>, wa: seq<WireAttr>, ra: seq<ResolvedAttr>, wb: seq<WireAttr>, rb: seq<ResolvedAttr>)
    requires AttrsResolve(strings, wa, ra) && AttrsResolve(strings, wb, rb)
    ensures AttrsResolve(strings, wa + wb, ra + rb)
  {
    forall k | 0 <= k < |wa + wb| ensures AttrResolves(strings, (wa + wb)[k], (ra + rb)[k]) {
      if k < |wa| {
        assert (wa + wb)[k] == wa[k] && (ra + rb)[k] == ra[k];
      } else {
        assert (wa + wb)[k] == wb[k - |wa|] && (ra + rb)[k] == rb[k - |wa|];
      }
    }
  }

  /** The doctype's attribute list: `name` and the name, then `publicId` and
      `systemId` with their ids when those are not empty. */
  method DoctypeAttrs(name: string, publicId: string, systemId: string, i: Interner)
    returns (interner: Interner, attrs: seq<WireAttr>)
    ensures i.table <= interner.table
    ensures AttrsResolve(interner.table, attrs, DoctypeResolvedAttrs(name, publicId, systemId))
  {
    var (i1, first) := OptionalAttr(true, "name", name, i);
    var (i2, pub) := OptionalAttr(publicId != "", "publicId", publicId, i1);
    var (i3, sys) := OptionalAttr(systemId != "", "systemId", systemId, i2);
    var rFirst := [ResolvedAttr(None, "name", name)];
    var rPub := if publicId != "" then [ResolvedAttr(None, "publicId", publicId)] else [];
    var rSys := if systemId != "" then [ResolvedAttr(None, "systemId", systemId)] else [];
    AttrsResolveGrow(i1.table, i3.table, first, rFirst);
    AttrsResolveGrow(i2.table, i3.table, pub, rPub);
    AttrsResolveConcat(i3.table, first, rFirst, pub, rPub);
    AttrsResolveConcat(i3.table, first + pub, rFirst + rPub, sys, rSys);
    interner, attrs := i3, first + pub + sys;
  }

  /** The record for a doctype: its name, its `value`, and the
      `name`/`publicId`/`systemId` list, interned in that order. */
  method EmitDoctype(name: string, publicId: string, systemId: string, value: string, id: nat, parent: Option<nat>, i: Interner)
    returns (interner: Interner, w: WireNode)
    ensures i.table <= interner.table
    ensures w.id == id && w.nodeType == DocumentType && w.parent == parent
    ensures Resolves(interner.table, w.name, name) && Resolves(interner.table, w.value, value)
    ensures w.attrs.Some? && AttrsResolve(interner.table, w.attrs.value, DoctypeResolvedAttrs(name, publicId, systemId))
    ensures w.firstChild.None? && w.nextSibling.None?
  {
    var (i1, n) := Put(i, name);
    var i2, attrs := DoctypeAttrs(name, publicId, systemId, i1);
    var (i3, v) := Put(i2, value);
    AttrsResolveGrow(i2.table, i3.table, attrs, DoctypeResolvedAttrs(name, publicId, systemId));
    assert i3.table[n] == i1.table[n];
    interner, w := i3, WireNode(id, DocumentType, Some(n), Some(v), parent, None, None, Some(attrs));
  }

  /** The record for an element: its qualified name and, when it has any, its attributes. */
  function EmitElement(q: Markup.QualName, attrs: seq<Markup.Attribute>, id: nat, parent: Option<nat>, i: Interner): (r: (Interner, WireNode))
    ensures i.table <= r.0.table
    ensures r.1.id == id && r.1.nodeType == Wire.Element && r.1.parent == parent && r.1.value.None?
    ensures Resolves(r.0.table, r.1.name, QualString(q))
    ensures |attrs| == 0 ==> r.1.attrs.None?
    ensures |attrs| > 0 ==> r.1.attrs.Some? && AttrsResolve(r.0.table, r.1.attrs.value, ResolvedAttrsOf(attrs))
    ensures r.1.firstChild.None? && r.1.nextSibling.None?
  {
    var (i1, n) := InternQual(q, i);
    if |attrs| == 0 then (i1, WireNode(id, Wire.Element, Some(n), None, parent, None, None, None))
    else
      var (i2, wa) := InternAttrs(attrs, i1);
      (i2, WireNode(id, Wire.Element, Some(n), None, parent, None, None, Some(wa)))
  }

  /** The record for a node with a name and a value and nothing else: text, comment, processing instruction. */
  function EmitLeaf(name: string, value: string, nodeType: WireNodeType, id: nat, parent: Option<nat>, i: Interner): (r: (Interner, WireNode))
    ensures i.table <= r.0.table
    ensures r.1.id == id && r.1.nodeType == nodeType && r.1.parent == parent && r.1.attrs.None?
    ensures Resolves(r.0.table, r.1.name, name) && Resolves(r.0.table, r.1.value, value)
    ensures r.1.firstChild.None? && r.1.nextSibling.None?
  {
    var (i1, n) := Put(i, name);
    var (i2, v) := Put(i1, value);
    (i2, WireNode(id, nodeType, Some(n), Some(v), parent, None, None, None))
  }

  lemma DoctypeEncodes(strings: seq<string>, w: WireNode, name: string, publicId: string, systemId: string, id: nat, parent: Option<nat>)
    requires w.id == id && w.nodeType == DocumentType && w.parent == parent
    requires Resolves(strings, w.name, name) && Resolves(strings, w.value, DoctypeValue(name, publicId, systemId))
    requires w.attrs.Some? && AttrsResolve(strings, w.attrs.value, DoctypeResolvedAttrs(name, publicId, systemId))
    ensures NodeEncodes(strings, w, RcDom.Doctype(name, publicId, systemId), id, parent)
  {
  }

  lemma ElementEncodes(strings: seq<string>, w: WireNode, q: Markup.QualName, attrs: seq<Markup.Attribute>, id: nat, parent: Option<nat>)
    requires w.id == id && w.nodeType == Wire.Element && w.parent == parent && w.value.None?
    requires Resolves(strings, w.name, QualString(q))
    requires |attrs| == 0 ==> w.attrs.None?
    requires |attrs| > 0 ==> w.attrs.Some? && AttrsResolve(strings, w.attrs.value, ResolvedAttrsOf(attrs))
    ensures NodeEncodes(strings, w, RcDom.Element(q, attrs), id, parent)
  {
  }

  /** An encoded record names only strings the table holds. */
  lemma EncodesStringsIn(strings: seq<string>, w: WireNode, data: RcDom.NodeData, id: nat, parent: Option<nat>)
    requires NodeEncodes(strings, w, data, id, parent)
    ensures StringsIn(w, |strings|) && w.id == id && w.parent == (if data.Document? then None else parent)
  {
    if w.attrs.Some? {
      var rs := NodeAttrs(data).value;
      forall k | 0 <= k < |w.attrs.value| ensures AttrIn(w.attrs.value[k], |strings|) {
        assert AttrResolves(strings, w.attrs.value[k], rs[k]);
      }
    }
  }

  /** The record `collect` builds for one node before its children are
      visited, interning its strings in the order lib.rs does; no links to
      children or siblings yet. */
  method EmitRecord(data: RcDom.NodeData, id: nat, parent: Option<nat>, i: Interner)
    returns (interner: Interner, w: WireNode)
    ensures i.table <= interner.table
    ensures NodeEncodes(interner.table, w, data, id, parent)
    ensures w.firstChild.None? && w.nextSibling.None?
  {
    match data
    case Document =>
      var r := Put(i, "#document");
      interner := r.0;
      w := WireNode(id, Wire.Document, Some(r.1), None, None, None, None, None);
    case Doctype(name, publicId, systemId) =>
      interner, w := EmitDoctype(name, publicId, systemId, DoctypeValue(name, publicId, systemId), id, parent, i);
      DoctypeEncodes(interner.table, w, name, publicId, systemId, id, parent);
    case Element(q, attrs) =>
      var r := EmitElement(q, attrs, id, parent, i);
      ElementEncodes(r.0.table, r.1, q, attrs, id, parent);
      interner, w := r.0, r.1;
    case Text(contents) =>
      var r := EmitLeaf("#text", contents, Wire.Text, id, parent, i);
      interner, w := r.0, r.1;
    case Comment(contents) =>
      var r := EmitLeaf("#comment", contents, Wire.Comment, id, parent, i);
      interner, w := r.0, r.1;
    case ProcessingInstruction(target, contents) =>
      var r := EmitLeaf(target, contents, Wire.ProcessingInstruction, id, parent, i);
      interner, w := r.0, r.1;
  }

  // ---------------------------------------------------------------------
  // The walk

  /** The number of nodes in the tree. */
  function Size(t: Tree): (n: nat)
    ensures n >= 1
    decreases t, 1
  {
    1 + SizeBefore(t, |t.children|)
  }

  /** The number of nodes in the first `j` child subtrees. */
  function SizeBefore(t: Tree, j: nat): nat
    requires j <= |t.children|
    decreases t, 0, j
  {
    if j == 0 then 0 else SizeBefore(t, j - 1) + Size(t.children[j - 1])
  }

  /** In pre-order, child `j` of the node at `a` sits after the node and the earlier children's subtrees. */
  function ChildId(t: Tree, a: nat, j: nat): nat
    requires j <= |t.children|
  {
    a + 1 + SizeBefore(t, j)
  }

  /** Child subtrees sit one after another: a later child starts no earlier. */
  lemma {:induction false} SizeBeforeMono(t: Tree, j: nat, k: nat)
    requires j <= k <= |t.children|
    ensures SizeBefore(t, j) <= SizeBefore(t, k)
    decreases k
  {
    if j < k {
      SizeBeforeMono(t, j, k - 1);
    }
  }

  // ---------------------------------------------------------------------
  // What the walk should produce

  /** The records at positions `lo` up to `hi` are the same in both arrays. */
  ghost predicate Agree(nodes: seq<WireNode>, other: seq<WireNode>, lo: nat, hi: nat) {
    hi <= |nodes| && hi <= |other| && forall k :: lo <= k < hi ==> other[k] == nodes[k]
  }

  /** The block of records from `a` holds `t` in pre-order: the record at `a`
      encodes the root under `parent`, its `firstChild` is the first child's
      position (none when childless), and the children's blocks follow it
      as a sibling chain. The root's own `nextSibling` belongs to whoever
      holds its parent, so it is not constrained here. */
  ghost predicate Encodes(nodes: seq<WireNode>, strings: seq<string>, t: Tree, a: nat, parent: Option<nat>)
    decreases t, 2
  {
    && a + Size(t) <= |nodes|
    && NodeEncodes(strings, nodes[a], t.data, a, parent)
    && nodes[a].firstChild == (if |t.children| == 0 then None else Some(a + 1))
    && ChildrenEncode(nodes, strings, t, a, |t.children|)
  }

  /** The first `n` children of the root at `a` are encoded in order, each
      one's `nextSibling` naming the next, the `n`-th one's naming none. */
  ghost predicate ChildrenEncode(nodes: seq<WireNode>, strings: seq<string>, t: Tree, a: nat, n: nat)
    decreases t, 1
  {
    n <= |t.children| && forall j :: 0 <= j < n ==> ChildEncodes(nodes, strings, t, a, j, n)
  }

  /** Child `j` of the root at `a` is encoded at its pre-order position under `a`. */
  ghost predicate ChildEncodes(nodes: seq<WireNode>, strings: seq<string>, t: Tree, a: nat, j: nat, n: nat)
    decreases t, 0
  {
    && j < n <= |t.children|
    && Encodes(nodes, strings, t.children[j], ChildId(t, a, j), Some(a))
    && nodes[ChildId(t, a, j)].nextSibling == (if j + 1 < n then Some(ChildId(t, a, j + 1)) else None)
  }

  /** An encoded block stays encoded when the string table grows and nothing
      inside the block changes except the root's `nextSibling`. */
  lemma {:induction false} EncodesMove(nodes: seq<WireNode>, strings: seq<string>, other: seq<WireNode>, more: seq<string>,
                                       t: Tree, a: nat, parent: Option<nat>)
    requires Encodes(nodes, strings, t, a, parent) && strings <= more
    requires Agree(nodes, other, a + 1, a + Size(t))
    requires other[a] == nodes[a].(nextSibling := other[a].nextSibling)
    ensures Encodes(other, more, t, a, parent)
    decreases t, 1
  {
    NodeEncodesGrow(strings, more, nodes[a], t.data, a, parent);
    ChildrenMove(nodes, strings, other, more, t, a, |t.children|);
  }

  /** Encoded children stay encoded when the string table grows and nothing
      inside their blocks changes. */
  lemma {:induction false} ChildrenMove(nodes: seq<WireNode>, strings: seq<string>, other: seq<WireNode>, more: seq<string>,
                                        t: Tree, a: nat, n: nat)
    requires ChildrenEncode(nodes, strings, t, a, n) && strings <= more
    requires Agree(nodes, other, a + 1, ChildId(t, a, n))
    ensures ChildrenEncode(other, more, t, a, n)
    decreases t, 0
  {
    forall j | 0 <= j < n ensures ChildEncodes(other, more, t, a, j, n) {
      assert ChildEncodes(nodes, strings, t, a, j, n);
      SizeBeforeMono(t, j + 1, n);
      EncodesMove(nodes, strings, other, more, t.children[j], ChildId(t, a, j), Some(a));
    }
  }

  /** Where `collect` writes the link for child `j`: the parent's record
      for the first child, the previous child's record for the others. */
  function LinkAt(t: Tree, a: nat, j: nat): nat
    requires j < |t.children|
  {
    if j == 0 then a else ChildId(t, a, j - 1)
  }

  /** The link `collect` writes after visiting child `j`: the parent's
      `firstChild` for the first child, the previous child's `nextSibling`
      for the others; no other record changes. */
  function Link(nodes: seq<WireNode>, t: Tree, a: nat, j: nat): (r: seq<WireNode>)
    requires j < |t.children| && ChildId(t, a, j) < |nodes|
    ensures |r| == |nodes|
    ensures forall k :: 0 <= k < |nodes| && k != LinkAt(t, a, j) ==> r[k] == nodes[k]
    ensures j == 0 ==> r[a] == nodes[a].(firstChild := Some(ChildId(t, a, j)))
    ensures j > 0 ==> r[LinkAt(t, a, j)] == nodes[LinkAt(t, a, j)].(nextSibling := Some(ChildId(t, a, j)))
  {
    var cid := ChildId(t, a, j);
    if j == 0 then nodes[a := nodes[a].(firstChild := Some(cid))]
    else
      var prev := ChildId(t, a, j - 1);
      nodes[prev := nodes[prev].(nextSibling := Some(cid))]
  }

  /** After the link for child `j`, a child before the previous one is
      still encoded: neither its block nor its own record changed. */
  lemma LinkedEarlier(mid: seq<WireNode>, strings: seq<string>, t: Tree, a: nat, j: nat, m: nat)
    requires m + 1 < j < |t.children| && ChildId(t, a, j) < |mid|
    requires ChildEncodes(mid, strings, t, a, m, j)
    ensures ChildEncodes(Link(mid, t, a, j), strings, t, a, m, j + 1)
  {
    var linked := Link(mid, t, a, j);
    var c := ChildId(t, a, m);
    SizeBeforeMono(t, m + 1, j - 1);
    assert Agree(mid, linked, c, c + Size(t.children[m]));
    EncodesMove(mid, strings, linked, strings, t.children[m], c, Some(a));
  }

  /** After the link for child `j`, the previous child is still encoded and
      its `nextSibling` now names child `j`. */
  lemma LinkedPrevious(mid: seq<WireNode>, strings: seq<string>, t: Tree, a: nat, j: nat)
    requires 0 < j < |t.children| && ChildId(t, a, j) < |mid|
    requires ChildEncodes(mid, strings, t, a, j - 1, j)
    ensures ChildEncodes(Link(mid, t, a, j), strings, t, a, j - 1, j + 1)
  {
    var linked := Link(mid, t, a, j);
    var c := ChildId(t, a, j - 1);
    assert Agree(mid, linked, c + 1, c + Size(t.children[j - 1]));
    EncodesMove(mid, strings, linked, strings, t.children[j - 1], c, Some(a));
  }

  /** After the link for child `j`, child `j` itself is encoded and ends the chain. */
  lemma LinkedLast(mid: seq<WireNode>, strings: seq<string>, t: Tree, a: nat, j: nat)
    requires j < |t.children| && ChildId(t, a, j) < |mid|
    requires Encodes(mid, strings, t.children[j], ChildId(t, a, j), Some(a)) && mid[ChildId(t, a, j)].nextSibling.None?
    ensures ChildEncodes(Link(mid, t, a, j), strings, t, a, j, j + 1)
  {
    var linked := Link(mid, t, a, j);
    var c := ChildId(t, a, j);
    assert Agree(mid, linked, c + 1, c + Size(t.children[j]));
    EncodesMove(mid, strings, linked, strings, t.children[j], c, Some(a));
  }

  /** Visiting child `j` and linking it extends the encoded children by one. */
  lemma ChildStep(nodes: seq<WireNode>, strings: seq<string>, mid: seq<WireNode>, more: seq<string>, t: Tree, a: nat, j: nat)
    requires j < |t.children| && |nodes| == ChildId(t, a, j)
    requires ChildrenEncode(nodes, strings, t, a, j) && strings <= more
    requires Agree(nodes, mid, 0, |nodes|)
    requires Encodes(mid, more, t.children[j], |nodes|, Some(a)) && mid[|nodes|].nextSibling.None?
    ensures ChildrenEncode(Link(mid, t, a, j), more, t, a, j + 1)
  {
    ChildrenMove(nodes, strings, mid, more, t, a, j);
    var n := j + 1;
    forall m | 0 <= m < n ensures ChildEncodes(Link(mid, t, a, j), more, t, a, m, n) {
      if m + 1 < j {
        LinkedEarlier(mid, more, t, a, j, m);
      } else if m + 1 == j {
        LinkedPrevious(mid, more, t, a, j);
      } else {
        LinkedLast(mid, more, t, a, j);
      }
    }
    assert ChildrenEncode(Link(mid, t, a, j), more, t, a, n);
  }

  /** A root record that encodes the node, with the right `firstChild`, over
      encoded children, makes an encoded block. */
  lemma RootEncodes(nodes: seq<WireNode>, strings: seq<string>, t: Tree, a: nat, parent: Option<nat>, w: WireNode)
    requires a < |nodes| && NodeEncodes(strings, w, t.data, a, parent)
    requires nodes[a] == w.(firstChild := if |t.children| == 0 then None else Some(a + 1))
    requires ChildrenEncode(nodes, strings, t, a, |t.children|) && |nodes| == ChildId(t, a, |t.children|)
    ensures Encodes(nodes, strings, t, a, parent)
  {
  }

  // ---------------------------------------------------------------------
  // The walk itself

  /** `collect`: emits the record for `t` at the next free position, then
      visits the children in order. Returns the record's position, the grown
      interner and the grown array: earlier records are untouched and the
      new block encodes `t`. */
  method Collect(t: Tree, parent: Option<nat>, i: Interner, nodes: seq<WireNode>)
    returns (id: nat, interner: Interner, out: seq<WireNode>)
    ensures id == |nodes| && |out| == |nodes| + Size(t)
    ensures i.table <= interner.table
    ensures Agree(nodes, out, 0, |nodes|)
    ensures out[id].nextSibling.None?
    ensures Encodes(out, interner.table, t, id, parent)
    decreases t, 1
  {
    id := |nodes|;
    var emitted, w := EmitRecord(t.data, id, parent, i);
    interner, out := emitted, nodes + [w];
    var j := 0;
    while j < |t.children|
      invariant j <= |t.children| && |out| == ChildId(t, id, j)
      invariant emitted.table <= interner.table
      invariant Agree(nodes, out, 0, id)
      invariant out[id] == w.(firstChild := if j == 0 then None else Some(id + 1))
      invariant ChildrenEncode(out, interner.table, t, id, j)
    {
      interner, out := VisitChild(t, id, j, interner, out);
      j := j + 1;
    }
    NodeEncodesGrow(emitted.table, interner.table, w, t.data, id, parent);
    RootEncodes(out, interner.table, t, id, parent, w);
  }

  /** One turn of `collect`'s loop over the children of the record at `a`:
      collects child `j` after the earlier ones, then writes its link. */
  method VisitChild(t: Tree, a: nat, j: nat, i: Interner, nodes: seq<WireNode>)
    returns (interner: Interner, out: seq<WireNode>)
    requires j < |t.children| && |nodes| == ChildId(t, a, j)
    requires ChildrenEncode(nodes, i.table, t, a, j)
    ensures |out| == ChildId(t, a, j + 1)
    ensures i.table <= interner.table
    ensures Agree(nodes, out, 0, a)
    ensures out[a] == if j == 0 then nodes[a].(firstChild := Some(a + 1)) else nodes[a]
    ensures ChildrenEncode(out, interner.table, t, a, j + 1)
    decreases t, 0
  {
    var cid, mid;
    cid, interner, mid := Collect(t.children[j], Some(a), i, nodes);
    ChildStep(nodes, i.table, mid, interner.table, t, a, j);
    out := Link(mid, t, a, j);
  }

  // ---------------------------------------------------------------------
  // What the walk's output promises

  /** A position after the root of a block lies in the block of exactly one child. */
  lemma {:induction false} FindChild(t: Tree, a: nat, k: nat, n: nat) returns (j: nat)
    requires n <= |t.children| && a + 1 <= k < ChildId(t, a, n)
    ensures j < n && ChildId(t, a, j) <= k < ChildId(t, a, j + 1)
    decreases n
  {
    if k >= ChildId(t, a, n - 1) {
      j := n - 1;
    } else {
      j := FindChild(t, a, k, n - 1);
    }
  }

  /** Every record of an encoded block carries its own position as id and
      holds only indices into the tables, provided the root's parent and
      next sibling, which lie outside the block, are in range. */
  lemma {:induction false} EncodesFlat(nodes: seq<WireNode>, strings: seq<string>, t: Tree, a: nat, parent: Option<nat>, k: nat)
    requires Encodes(nodes, strings, t, a, parent)
    requires IndexIn(parent, |nodes|) && IndexIn(nodes[a].nextSibling, |nodes|)
    requires a <= k < a + Size(t)
    ensures nodes[k].id == k && NodeIn(nodes[k], |nodes|, |strings|)
    decreases t
  {
    var n := |t.children|;
    if k == a {
      EncodesStringsIn(strings, nodes[a], t.data, a, parent);
      if n > 0 {
        SizeBeforeMono(t, 1, n);
      }
    } else {
      var j := FindChild(t, a, k, n);
      assert ChildEncodes(nodes, strings, t, a, j, n);
      var c := ChildId(t, a, j);
      if j + 1 < n {
        assert ChildEncodes(nodes, strings, t, a, j + 1, n);
        assert Encodes(nodes, strings, t.children[j + 1], ChildId(t, a, j + 1), Some(a));
        assert nodes[c].nextSibling == Some(ChildId(t, a, j + 1)) && ChildId(t, a, j + 1) < |nodes|;
      } else {
        assert nodes[c].nextSibling.None?;
      }
      EncodesFlat(nodes, strings, t.children[j], ChildId(t, a, j), Some(a), k);
    }
  }

  /** The positions met by following `nextSibling` from `start`, for at most `fuel` steps. */
  function SiblingChain(nodes: seq<WireNode>, start: Option<nat>, fuel: nat): seq<nat>
    decreases fuel
  {
    if fuel == 0 || start.None? || start.value >= |nodes| then []
    else [start.value] + SiblingChain(nodes, nodes[start.value].nextSibling, fuel - 1)
  }

  /** The pre-order positions of the children of the root at `a`, from child `j` on. */
  function ChildIds(t: Tree, a: nat, j: nat): (r: seq<nat>)
    requires j <= |t.children|
    ensures |r| == |t.children| - j
    ensures forall m :: 0 <= m < |r| ==> r[m] == ChildId(t, a, j + m)
    decreases |t.children| - j
  {
    if j == |t.children| then [] else [ChildId(t, a, j)] + ChildIds(t, a, j + 1)
  }

  /** Following `nextSibling` from child `j` meets exactly the later children, in order, and then stops. */
  lemma {:induction false} ChainFrom(nodes: seq<WireNode>, strings: seq<string>, t: Tree, a: nat, j: nat, fuel: nat)
    requires ChildrenEncode(nodes, strings, t, a, |t.children|)
    requires j < |t.children| && fuel >= |t.children| - j
    ensures SiblingChain(nodes, Some(ChildId(t, a, j)), fuel) == ChildIds(t, a, j)
    decreases |t.children| - j
  {
    var c := ChildId(t, a, j);
    assert ChildEncodes(nodes, strings, t, a, j, |t.children|);
    assert Encodes(nodes, strings, t.children[j], c, Some(a));
    assert SiblingChain(nodes, Some(c), fuel) == [c] + SiblingChain(nodes, nodes[c].nextSibling, fuel - 1);
    assert ChildIds(t, a, j) == [c] + ChildIds(t, a, j + 1);
    if j + 1 < |t.children| {
      ChainFrom(nodes, strings, t, a, j + 1, fuel - 1);
    }
  }

  /** Each subtree holds at least one node, so a node has no more children than its children's subtrees hold nodes. */
  lemma {:induction false} SizeBeforeCounts(t: Tree, j: nat)
    requires j <= |t.children|
    ensures SizeBefore(t, j) >= j
    decreases j
  {
    if j > 0 {
      SizeBeforeCounts(t, j - 1);
    }
  }

  /** The sibling chain reproduces the child list: from the root's
      `firstChild`, following `nextSibling` meets the children's positions
      in order and ends, well within `|nodes|` steps. */
  lemma SiblingChainListsChildren(nodes: seq<WireNode>, strings: seq<string>, t: Tree, a: nat, parent: Option<nat>)
    requires Encodes(nodes, strings, t, a, parent)
    ensures SiblingChain(nodes, nodes[a].firstChild, |nodes|) == ChildIds(t, a, 0)
  {
    if |t.children| > 0 {
      SizeBeforeCounts(t, |t.children|);
      ChainFrom(nodes, strings, t, a, 0, |nodes|);
    }
  }

  // ---------------------------------------------------------------------
  // The document

  /** The quirks-mode string `serialize_dom` writes: the spelling `Display`
      prints for the same mode, so parsing it gives the mode back. */
  function QuirksString(m: Markup.QuirksMode): (s: string)
    ensures s == Quirks.Display(Quirks.FromServo(m))
    ensures Quirks.ToServo(Quirks.FromString(s)) == m
  {
    Quirks.DisplayRoundTrip(Quirks.FromServo(m));
    match m
    case NoQuirks => "no-quirks"
    case Quirks => "quirks"
    case LimitedQuirks => "limited-quirks"
  }

  /** The interner `serialize_dom` starts from: `Interner::default`, whose
      table begins with the default seed. */
  method DefaultInterner() returns (i: Interner)
    ensures DefaultSeedStrings <= i.table
  {
    i := Interning.Default();
  }

  /** `serialize_dom`: collects the tree from the document node with the
      default interner, then records the content type and the quirks mode.
      The result is well formed, starts its string table with the default
      seed, and encodes the whole tree from position 0. */
  method SerializeDom(t: Tree, quirks: Markup.QuirksMode, contentType: string) returns (doc: WireDoc)
    ensures doc.contentType == contentType && doc.quirksMode == QuirksString(quirks)
    ensures DefaultSeedStrings <= doc.strings
    ensures |doc.nodes| == Size(t) && Encodes(doc.nodes, doc.strings, t, 0, None)
    ensures doc.nodes[0].nextSibling.None?
    ensures forall k :: 0 <= k < |doc.nodes| ==> doc.nodes[k].id == k
    ensures WellFormed(doc)
  {
    var seeded := DefaultInterner();
    var root, interner, nodes := Collect(t, None, seeded, []);
    forall k | 0 <= k < |nodes| ensures nodes[k].id == k && NodeIn(nodes[k], |nodes|, |interner.table|) {
      EncodesFlat(nodes, interner.table, t, 0, None, k);
    }
    doc := WireDoc(contentType, QuirksString(quirks), IntoStrings(interner), nodes);
  }
}

=== FILE: interner.dfy ===
/** The document-scoped string interner: an append-only table of strings in
    which every string is referred to by its position. `intern` finds a
    string or appends it; `extend` appends without looking. */
module Interning {
  import opened Wrappers
  import opened Seqs

  datatype Interner = Interner(table: seq<string>)

  /** The 24 strings every default interner starts with. */
  const DefaultSeedStrings: seq<string> := [
    "", "html", "head", "body", "div", "span", "script", "style", "a", "img",
    "meta", "link", "rel", "class", "id", "hidden", "disabled", "content",
    "type", "href", "src", "title", "alt", "value"
  ]

  /** The 20 strings the extended seed adds after the default seed. */
  const ExtendedSeedStrings: seq<string> := [
    "xmlns", "xlink",
    "http://www.w3.org/1999/xhtml",
    "http://www.w3.org/2000/svg",
    "http://www.w3.org/1999/xlink",
    "http://www.w3.org/XML/1998/namespace",
    "http://www.w3.org/2000/xmlns/",
    "http://www.w3.org/1998/Math/MathML",
    "svg", "xml", "align", "lang", "for", "width", "height", "role",
    "aria-hidden", "aria-label", "aria-labelledby", "aria-describedby"
  ]

  /** An interner with an empty table. */
  function New(): (r: Interner)
    ensures |r.table| == 0
  {
    Interner([])
  }

  /** Appends every string, in order, one push at a time, without de-duplication. */
  function Extend(i: Interner, strings: seq<string>): (r: Interner)
    ensures r.table == i.table + strings
    decreases |strings|
  {
    if |strings| == 0 then i
    else Extend(Interner(i.table + [strings[0]]), strings[1..])
  }

  /** An interner whose table is exactly the given strings. */
  function Seed(strings: seq<string>): (r: Interner)
    ensures r.table == strings
  {
    Extend(New(), strings)
  }

  function DefaultSeed(): (r: Interner)
    ensures r.table == DefaultSeedStrings
  {
    Seed(DefaultSeedStrings)
  }

  function ExtendedSeed(): (r: Interner)
    ensures r.table == DefaultSeedStrings + ExtendedSeedStrings
  {
    Extend(DefaultSeed(), ExtendedSeedStrings)
  }

  /** `Default` is the default seed: the 24 default strings, the empty string first and "html" second. */
  function Default(): (r: Interner)
    ensures r.table == DefaultSeedStrings
    ensures |r.table| == 24 && r.table[0] == "" && r.table[1] == "html"
  {
    DefaultSeed()
  }

  /** Hands the table out unchanged: seeding an interner with it gives the
      same interner back, and every string handed out is one that interning
      finds without growing the table, at its position or earlier. */
  function IntoStrings(i: Interner): (r: seq<string>)
    ensures Seed(r) == i
    ensures |r| == |i.table|
    ensures forall k :: 0 <= k < |r| ==> Intern(i, r[k]).0 == i && Intern(i, r[k]).1 <= k
  {
    i.table
  }

  /** Finds `s` (its first occurrence) or appends it; returns the new
      interner and the index that now resolves to `s`. */
  function Intern(i: Interner, s: string): (r: (Interner, nat))
    ensures r.1 < |r.0.table| && r.0.table[r.1] == s
    ensures forall j :: 0 <= j < r.1 ==> r.0.table[j] != s
    ensures i.table <= r.0.table
    ensures s in i.table ==> r.0 == i
    ensures s !in i.table ==> r.0.table == i.table + [s] && r.1 == |i.table|
  {
    match IndexOf(i.table, s)
    case Some(k) => (i, k)
    case None => (Interner(i.table + [s]), |i.table|)
  }

  /** Interning the same string again returns the same index and changes nothing. */
  lemma InternIdempotent(i: Interner, s: string)
    ensures var (i1, k1) := Intern(i, s);
            Intern(i1, s) == (i1, k1)
  {
    var (i1, k1) := Intern(i, s);
    assert s in i1.table;
  }

  /** An index stays valid: re-interning a string after interning another
      one returns the index it got the first time. */
  lemma InternStable(i: Interner, s: string, t: string)
    ensures var (i1, a) := Intern(i, s);
            var (i2, _) := Intern(i1, t);
            Intern(i2, s) == (i2, a)
  {
    var (i1, a) := Intern(i, s);
    var (i2, b) := Intern(i1, t);
    assert i2.table[a] == s;
  }

  /** Two different strings interned one after the other get different
      indices, and the first index still resolves after the second call. */
  lemma InternDistinct(i: Interner, s: string, t: string)
    requires s != t
    ensures var (i1, a) := Intern(i, s);
            var (i2, b) := Intern(i1, t);
            a != b && i2.table[a] == s && i2.table[b] == t
  {
  }

  /** The table grows by exactly one entry iff the string was absent. */
  lemma InternGrowth(i: Interner, s: string)
    ensures |Intern(i, s).0.table| == |i.table| + (if s in i.table then 0 else 1)
  {
  }

  /** With duplicates already in the table, the first occurrence wins. */
  lemma InternFindsFirst(i: Interner, s: string, k: nat)
    requires k < |i.table| && i.table[k] == s
    ensures Intern(i, s).1 <= k && Intern(i, s).0 == i
  {
  }

  /** The extended seed is the default seed followed by 20 more strings. */
  lemma ExtendedSeedTable()
    ensures |IntoStrings(ExtendedSeed())| == 44
    ensures IntoStrings(Default()) <= IntoStrings(ExtendedSeed())
  {
    PrefixOfConcat(DefaultSeedStrings, ExtendedSeedStrings);
  }

  lemma PrefixOfConcat(a: seq<string>, b: seq<string>)
    ensures a <= a + b
  {
    assert (a + b)[..|a|] == a;
  }

  /** The usage shown in the interner's documentation: "hello" twice gives
      one index, "world" another, and both resolve. */
  lemma DocumentedUsage()
    ensures var (i1, hello) := Intern(Default(), "hello");
            var (i2, world) := Intern(i1, "world");
            var (i3, helloAgain) := Intern(i2, "hello");
            && hello == helloAgain && hello != world
            && i3.table[hello] == "hello" && i3.table[world] == "world"
  {
    InternDistinct(Default(), "hello", "world");
    InternStable(Default(), "hello", "world");
  }
}

=== FILE: markup.dfy ===
/** The parser-side vocabulary the DOM sink receives from html5ever and
    markup5ever: qualified names, attributes and the tree builder's own
    quirks-mode enum. Only their shapes matter here. */
module Markup {
  import opened Wrappers

  /** A qualified name; `prefix` is absent for unprefixed names and `ns` is
      empty for names in no namespace. Equality compares all three parts. */
  datatype QualName = QualName(prefix: Option<string>, ns: string, local: string)

  datatype Attribute = Attribute(name: QualName, value: string)

  /** markup5ever's `QuirksMode`, the document mode the tree builder records. */
  datatype QuirksMode = Quirks | LimitedQuirks | NoQuirks
}

=== FILE: mime.dfy ===
/** Content-type normalisation: every MIME string the caller passes is mapped
    onto one of four canonical types, and two of those select the HTML parser. */
module Mime {
  import opened Text

  const TextHtml := "text/html"
  const ApplicationXhtml := "application/xhtml+xml"
  const ImageSvg := "image/svg+xml"
  const ApplicationXml := "application/xml"

  const HtmlSpellings: set<string> := {"text/html", "text/html4", "text/html5"}
  const XhtmlSpellings: set<string> := {"text/xhtml", "application/xhtml", "application/xhtml+xml"}
  const SvgSpellings: set<string> := {"image/svg", "image/svg+xml", "application/svg+xml"}

  /** The lookup key: trimmed, then lowercased. */
  function MimeKey(m: string): string {
    Lower(Trim(m))
  }

  /** `normalized_mime`: one of the four canonical types for any input. */
  function NormalizedMime(m: string): (r: string)
    ensures r in {TextHtml, ApplicationXhtml, ImageSvg, ApplicationXml}
  {
    Classify(MimeKey(m))
  }

  /** The match on the key. */
  function Classify(k: string): string {
    if k in HtmlSpellings then TextHtml
    else if k in XhtmlSpellings then ApplicationXhtml
    else if k in SvgSpellings then ImageSvg
    else ApplicationXml
  }

  /** `is_html_mime`: the normalised type is HTML or XHTML, which happens
      exactly for the six HTML and XHTML spellings, after trimming and lowercasing. */
  function IsHtmlMime(m: string): (r: bool)
    ensures r <==> MimeKey(m) in HtmlSpellings + XhtmlSpellings
  {
    NormalizedMime(m) == TextHtml || NormalizedMime(m) == ApplicationXhtml
  }

  lemma KeyOfCanonical(s: string)
    requires s in {TextHtml, ApplicationXhtml, ImageSvg, ApplicationXml}
    ensures MimeKey(s) == s
  {
    assert AllPlain(s);
    PlainIsTrimmedLower(s);
  }

  /** Normalising twice is normalising once: each canonical type maps to itself. */
  lemma NormalizedMimeIdempotent(m: string)
    ensures NormalizedMime(NormalizedMime(m)) == NormalizedMime(m)
  {
    var r := NormalizedMime(m);
    KeyOfCanonical(r);
    if r == TextHtml {
      assert r in HtmlSpellings;
    } else if r == ApplicationXhtml {
      assert |r| == 21;
      assert r !in HtmlSpellings && r in XhtmlSpellings;
    } else if r == ImageSvg {
      assert |r| == 13;
      assert r !in HtmlSpellings && r !in XhtmlSpellings && r in SvgSpellings;
    } else {
      assert |r| == 15;
      assert r !in HtmlSpellings + XhtmlSpellings + SvgSpellings;
    }
  }

  /** The empty type, used as the default, normalises to generic XML, which is not HTML. */
  lemma EmptyMimeIsXml()
    ensures NormalizedMime("") == ApplicationXml && !IsHtmlMime("")
  {
    PlainIsTrimmedLower("");
  }

  /** Lowercasing keeps whitespace whitespace and everything else not. */
  lemma LowerKeepsWhitespace(c: char)
    ensures IsWhitespace(LowerChar(c)) <==> IsWhitespace(c)
  {
  }

  /** Trimming and lowercasing commute. */
  lemma TrimLowerCommute(s: string)
    ensures Trim(Lower(s)) == Lower(Trim(s))
  {
    var r := Trim(s);
    var a := TrimAround(s);
    var ls := Lower(s);
    var lr := Lower(r);
    forall i | 0 <= i < |s| ensures IsWhitespace(ls[i]) <==> IsWhitespace(s[i]) {
      LowerKeepsWhitespace(s[i]);
    }
    assert ls[a..a + |r|] == lr;
    if |r| > 0 {
      LowerKeepsWhitespace(r[0]);
      LowerKeepsWhitespace(r[|r| - 1]);
    }
    assert WhitespaceAround(ls, lr, a);
    TrimUnique(ls, lr, a);
  }

  /** Normalisation ignores ASCII case and surrounding whitespace. */
  lemma NormalizedMimeInsensitive(w1: string, m: string, w2: string)
    requires AllWhitespace(w1) && AllWhitespace(w2)
    ensures NormalizedMime(Lower(m)) == NormalizedMime(m)
    ensures NormalizedMime(w1 + m + w2) == NormalizedMime(m)
  {
    TrimLowerCommute(m);
    LowerIdempotent(Trim(m));
    TrimIgnoresSurroundingWhitespace(w1, m, w2);
  }
}

=== FILE: options.dfy ===
/** Parser options and their defaults, and the conversion into the tree
    builder's own option record. */
module Options {
  import opened Wrappers
  import Quirks
  import Markup
  import Mime

  datatype ParseOptions = ParseOptions(
    exactErrors: bool,
    scriptingEnabled: bool,
    iframeSrcdoc: bool,
    dropDoctype: bool,
    quirksMode: Quirks.QuirksMode,
    contentType: Option<string>)

  datatype FragmentParseOptions = FragmentParseOptions(base: ParseOptions, contextElement: string)

  /** html5ever's tree-builder options: the content type is not among them. */
  datatype TreeBuilderOpts = TreeBuilderOpts(
    exactErrors: bool,
    scriptingEnabled: bool,
    iframeSrcdoc: bool,
    dropDoctype: bool,
    quirksMode: Markup.QuirksMode)

  function DefaultQuirksModeName(): string {
    "no-quirks"
  }

  function DefaultMimeType(): string {
    Mime.NormalizedMime("")
  }

  function DefaultContextElement(): string {
    "div"
  }

  /** `ParseOptions::default`: exact errors and scripting on, no srcdoc, the
      doctype kept; the quirks mode parsed from the default name, which is
      no quirks (the enum's default too); and a content type of generic XML
      (the normalisation of the empty type), which does not select the HTML
      parser. */
  function DefaultParseOptions(): (o: ParseOptions)
    ensures o.exactErrors && o.scriptingEnabled && !o.iframeSrcdoc && !o.dropDoctype
    ensures o.quirksMode == Quirks.Default() == Quirks.NoQuirks
    ensures o.contentType == Some(Mime.ApplicationXml)
    ensures !Mime.IsHtmlMime(o.contentType.value)
  {
    Mime.EmptyMimeIsXml();
    Mime.NormalizedMimeIdempotent("");
    Quirks.DisplayRoundTrip(Quirks.NoQuirks);
    ParseOptions(
      exactErrors := true,
      scriptingEnabled := true,
      iframeSrcdoc := false,
      dropDoctype := false,
      quirksMode :=
        match Quirks.FromStr(DefaultQuirksModeName())
        case Success(m) => m
        case Failure(_) => Quirks.Default(),
      contentType := Some(DefaultMimeType()))
  }

  /** `FragmentParseOptions::default`: the document defaults except that the
      doctype is dropped, with a `div` context element. */
  function DefaultFragmentParseOptions(): (f: FragmentParseOptions)
    ensures f.base == DefaultParseOptions().(dropDoctype := true)
    ensures f.base.dropDoctype && f.contextElement == "div"
  {
    FragmentParseOptions(
      DefaultParseOptions().(dropDoctype := true, iframeSrcdoc := false),
      DefaultContextElement())
  }

  /** `From<ParseOptions> for TreeBuilderOpts`. */
  function ToTreeBuilderOpts(o: ParseOptions): (t: TreeBuilderOpts)
    ensures Quirks.FromServo(t.quirksMode) == o.quirksMode
  {
    Quirks.ToServoBijective(o.quirksMode, Markup.NoQuirks);
    TreeBuilderOpts(o.exactErrors, o.scriptingEnabled, o.iframeSrcdoc, o.dropDoctype, Quirks.ToServo(o.quirksMode))
  }

  /** The conversion keeps every flag and the quirks mode's variant. */
  lemma TreeBuilderOptsKeepFlags(o: ParseOptions)
    ensures var t := ToTreeBuilderOpts(o);
            && t.exactErrors == o.exactErrors && t.scriptingEnabled == o.scriptingEnabled
            && t.iframeSrcdoc == o.iframeSrcdoc && t.dropDoctype == o.dropDoctype
            && t.quirksMode == Quirks.ToServo(o.quirksMode)
  {
  }
}

=== FILE: quirks_mode.dfy ===
/** The public quirks-mode option: the three document modes of section 4.5
    ("Interface Document") of the WHATWG DOM Standard, a forgiving parser
    that accepts any string, a printer, and the conversion to the tree
    builder's enum. */
module Quirks {
  import opened Wrappers
  import opened Text
  import Markup

  datatype QuirksMode = Quirks | LimitedQuirks | NoQuirks

  const QuirksSynonyms: set<string> := {"all", "yes", "full", "quirks"}
  const LimitedQuirksSynonyms: set<string> := {"some", "limited", "partial", "limited-quirks"}

  /** The derived default. */
  function Default(): QuirksMode {
    NoQuirks
  }

  /** The `Display` form. */
  function Display(m: QuirksMode): (s: string)
    ensures s in {"quirks", "limited-quirks", "no-quirks"}
  {
    match m
    case Quirks => "quirks"
    case LimitedQuirks => "limited-quirks"
    case NoQuirks => "no-quirks"
  }

  /** The `Debug` form, written out separately: it prints the same text as `Display`. */
  function Debug(m: QuirksMode): (s: string)
    ensures s == Display(m)
  {
    match m
    case Quirks => "quirks"
    case LimitedQuirks => "limited-quirks"
    case _ => "no-quirks"
  }

  /** The key the parser looks up: lowercased, then trimmed. */
  function Key(s: string): string {
    Trim(Lower(s))
  }

  /** `FromStr`: never fails; unknown words mean no quirks. */
  function FromStr(s: string): (r: Result<QuirksMode, ()>)
    ensures r.Success?
    ensures r.value == Quirks <==> Key(s) in QuirksSynonyms
    ensures r.value == LimitedQuirks <==> Key(s) !in QuirksSynonyms && Key(s) in LimitedQuirksSynonyms
  {
    Success(Classify(Key(s)))
  }

  /** The match on the key. */
  function Classify(k: string): QuirksMode {
    if k in QuirksSynonyms then Quirks
    else if k in LimitedQuirksSynonyms then LimitedQuirks
    else NoQuirks
  }

  /** `From<&str>`: the parsed mode, falling back to no quirks on error,
      which never happens. */
  function FromString(s: string): (r: QuirksMode)
    ensures r == Quirks <==> Key(s) in QuirksSynonyms
    ensures r == LimitedQuirks <==> Key(s) !in QuirksSynonyms && Key(s) in LimitedQuirksSynonyms
    ensures r == NoQuirks <==> Key(s) !in QuirksSynonyms && Key(s) !in LimitedQuirksSynonyms
  {
    match FromStr(s)
    case Success(m) => m
    case Failure(_) => NoQuirks
  }

  /** `From<QuirksMode>` for the tree builder's enum: `FromServo` undoes it. */
  function ToServo(m: QuirksMode): (r: Markup.QuirksMode)
    ensures FromServo(r) == m
  {
    match m
    case Quirks => Markup.Quirks
    case LimitedQuirks => Markup.LimitedQuirks
    case _ => Markup.NoQuirks
  }

  /** The enum's declared discriminants, the numbers JavaScript sees. */
  function Repr(m: QuirksMode): (n: nat)
    ensures n <= 2
    ensures m == Quirks <==> n == 0
    ensures m == LimitedQuirks <==> n == 1
    ensures m == NoQuirks <==> n == 2
  {
    match m
    case Quirks => 0
    case LimitedQuirks => 1
    case NoQuirks => 2
  }

  /** The derived `TryFrom` on the discriminant. */
  function FromRepr(n: int): (r: Option<QuirksMode>)
    ensures r.Some? <==> 0 <= n <= 2
  {
    if n == 0 then Some(Quirks)
    else if n == 1 then Some(LimitedQuirks)
    else if n == 2 then Some(NoQuirks)
    else None
  }

  /** Printing then parsing gives the mode back. */
  lemma DisplayRoundTrip(m: QuirksMode)
    ensures FromString(Display(m)) == m
  {
    match m
    case Quirks =>
      KeyOfPlainWord("quirks");
      assert Classify("quirks") == Quirks;
    case LimitedQuirks =>
      KeyOfPlainWord("limited-quirks");
      assert "limited-quirks" !in QuirksSynonyms;
      assert Classify("limited-quirks") == LimitedQuirks;
    case NoQuirks =>
      KeyOfPlainWord("no-quirks");
      assert "no-quirks" !in QuirksSynonyms && "no-quirks" !in LimitedQuirksSynonyms;
      assert Classify("no-quirks") == NoQuirks;
  }

  lemma KeyOfPlainWord(s: string)
    requires AllPlain(s)
    ensures Key(s) == s
  {
    PlainIsTrimmedLower(s);
  }

  /** The parser ignores ASCII case. */
  lemma ParseIgnoresCase(s: string)
    ensures FromString(Lower(s)) == FromString(s)
  {
    LowerIdempotent(s);
  }

  /** The parser ignores surrounding whitespace. */
  lemma ParseIgnoresSurroundingWhitespace(w1: string, s: string, w2: string)
    requires AllWhitespace(w1) && AllWhitespace(w2)
    ensures FromString(w1 + s + w2) == FromString(s)
  {
    LowerConcat(w1 + s, w2);
    LowerConcat(w1, s);
    LowerWhitespace(w1);
    LowerWhitespace(w2);
    TrimIgnoresSurroundingWhitespace(w1, Lower(s), w2);
  }

  /** The conversion to the tree builder's enum keeps the variant, so it is a bijection. */
  lemma ToServoBijective(m: QuirksMode, s: Markup.QuirksMode)
    ensures FromServo(ToServo(m)) == m
    ensures ToServo(FromServo(s)) == s
  {
  }

  /** The inverse of `ToServo`. */
  function FromServo(s: Markup.QuirksMode): QuirksMode {
    match s
    case Quirks => Quirks
    case LimitedQuirks => LimitedQuirks
    case NoQuirks => NoQuirks
  }

  /** The discriminants round-trip. */
  lemma ReprRoundTrip(m: QuirksMode, n: int)
    ensures FromRepr(Repr(m)) == Some(m)
    ensures FromRepr(n).Some? ==> Repr(FromRepr(n).value) == n
  {
  }
}

=== FILE: rcdom.dfy ===
/** The reference-counted DOM the tree builder writes into, modelled as an
    arena: every node lives in one map under its id, and parent and child
    links are ids. A Rust panic (a failed assertion, an `expect`, a
    `RefCell` borrow conflict) becomes a `Failure`. */
module RcDom {
  import opened Wrappers
  import opened Seqs
  import Markup

  type NodeId = nat

  datatype NodeData =
    | Document
    | Doctype(name: string, publicId: string, systemId: string)
    | Text(contents: string)
    | Comment(contents: string)
    | Element(qualName: Markup.QualName, attrs: seq<Markup.Attribute>)
    | ProcessingInstruction(target: string, contents: string)

  datatype Node = Node(data: NodeData, parent: Option<NodeId>, children: seq<NodeId>)

  /** The DOM: the arena, the document node, the recorded quirks mode, and the next free id. */
  datatype Dom = Dom(nodes: map<NodeId, Node>, document: NodeId, quirksMode: Markup.QuirksMode, next: NodeId)

  datatype NodeOrText = AppendNode(node: NodeId) | AppendText(text: string)

  datatype Panic =
    | DanglingParent       // the weak parent pointer no longer upgrades
    | MissingFromParent    // the node has a parent that does not list it
    | ChildHasParent       // `append` was given a node that already has a parent
    | NoParent             // `append_before_sibling` on a sibling without a parent
    | NotAnElement         // `add_attrs_if_missing` on a node that is not an element
    | AlreadyBorrowed      // `reparent_children` borrows the same child list twice
    | NoPreviousParent     // a child being reparented had no parent
    | WrongPreviousParent  // a child being reparented had another parent
    | InsertOutOfRange     // `Vec::insert` past the end

  /** What `Rc` guarantees by construction: the document and every child
      handle are live nodes, and fresh ids are above every id in use. */
  predicate Closed(d: Dom) {
    && d.document in d.nodes
    && (forall k :: k in d.nodes ==> k < d.next)
    && (forall p, i :: p in d.nodes && 0 <= i < |d.nodes[p].children| ==> d.nodes[p].children[i] in d.nodes)
  }

  /** Every listed child names its lister as parent. */
  predicate ChildrenPointBack(d: Dom) {
    forall p, i :: p in d.nodes && 0 <= i < |d.nodes[p].children| ==>
      d.nodes[p].children[i] in d.nodes && d.nodes[d.nodes[p].children[i]].parent == Some(p)
  }

  /** Every node with a parent is listed by that parent. */
  predicate ParentsPointDown(d: Dom) {
    forall c :: c in d.nodes && d.nodes[c].parent.Some? ==>
      d.nodes[c].parent.value in d.nodes && c in d.nodes[d.nodes[c].parent.value].children
  }

  predicate ChildrenDistinct(d: Dom) {
    forall p :: p in d.nodes ==> NoDup(d.nodes[p].children)
  }

  /** The parent/children agreement the original asserts on. */
  predicate Valid(d: Dom) {
    Closed(d) && ChildrenPointBack(d) && ParentsPointDown(d) && ChildrenDistinct(d)
  }

  /** A listed child names its lister as parent, stated on membership rather than on indices. */
  lemma ListedParents(d: Dom)
    requires ChildrenPointBack(d)
    ensures forall q, c :: q in d.nodes && c in d.nodes[q].children ==> c in d.nodes && d.nodes[c].parent == Some(q)
  {
    forall q, c | q in d.nodes && c in d.nodes[q].children
      ensures c in d.nodes && d.nodes[c].parent == Some(q)
    {
      var j :| 0 <= j < |d.nodes[q].children| && d.nodes[q].children[j] == c;
    }
  }

  /** Under the invariant a node's parent is `p` exactly when `p` lists it exactly once. */
  lemma ParentIffListedOnce(d: Dom, c: NodeId, p: NodeId)
    requires Valid(d) && c in d.nodes && p in d.nodes
    ensures d.nodes[c].parent == Some(p) <==> multiset(d.nodes[p].children)[c] == 1
  {
    NoDupCountsOnce(d.nodes[p].children, c);
    if c in d.nodes[p].children {
      var i :| 0 <= i < |d.nodes[p].children| && d.nodes[p].children[i] == c;
    }
  }

  /** `d'` differs from `d` only in links: no node is lost, the document, the
      quirks mode and every node's data are kept, only the nodes in `moved` may have a new
      parent, and only those in `relisted` a new child list. */
  predicate Relinked(d: Dom, d': Dom, moved: set<NodeId>, relisted: set<NodeId>) {
    && d.nodes.Keys <= d'.nodes.Keys && d'.document == d.document && d'.quirksMode == d.quirksMode
    && forall k :: k in d.nodes ==>
         && d'.nodes[k].data == d.nodes[k].data
         && (k !in moved ==> d'.nodes[k].parent == d.nodes[k].parent)
         && (k !in relisted ==> d'.nodes[k].children == d.nodes[k].children)
  }

  /** The parent of `h`, as a set: empty for a parentless node. */
  function ParentSet(d: Dom, h: NodeId): set<NodeId>
    requires h in d.nodes
  {
    if d.nodes[h].parent.Some? then {d.nodes[h].parent.value} else {}
  }

  /** `RcDom::default`: a lone document node, no quirks. */
  function Default(): (d: Dom)
    ensures Valid(d) && d.nodes.Keys == {d.document}
    ensures d.nodes[d.document] == Node(Document, None, [])
    ensures d.nodes[d.document].data == Document && d.quirksMode == Markup.NoQuirks
  {
    Dom(map[0 := Node(Document, None, [])], 0, Markup.NoQuirks, 1)
  }

  /** `Node::new` plus allocation: a fresh node with no parent and no children. */
  function NewNode(d: Dom, data: NodeData): (r: (Dom, NodeId))
    requires Closed(d)
    ensures r.1 !in d.nodes && Closed(r.0)
    ensures r.0.nodes == d.nodes[r.1 := Node(data, None, [])]
    ensures r.0.document == d.document && r.0.quirksMode == d.quirksMode
  {
    (d.(nodes := d.nodes[d.next := Node(data, None, [])], next := d.next + 1), d.next)
  }

  /** Allocation keeps the invariant. */
  lemma NewNodeValid(d: Dom, data: NodeData)
    requires Valid(d)
    ensures Valid(NewNode(d, data).0)
  {
    var (d1, n) := NewNode(d, data);
    forall c | c in d1.nodes && d1.nodes[c].parent.Some?
      ensures d1.nodes[c].parent.value in d1.nodes && c in d1.nodes[d1.nodes[c].parent.value].children
    {
      assert c != n;
    }
  }

  /** `get_parent_and_index`: the parent and the first position at which it
      lists the node, or nothing for a parentless node. */
  function GetParentAndIndex(d: Dom, h: NodeId): (r: Result<Option<(NodeId, nat)>, Panic>)
    requires h in d.nodes
    ensures (r.Success? && r.value.None?) <==> d.nodes[h].parent.None?
    ensures r.Success? && r.value.Some? ==>
              && Some(r.value.value.0) == d.nodes[h].parent && r.value.value.0 in d.nodes
              && r.value.value.1 < |d.nodes[r.value.value.0].children|
              && d.nodes[r.value.value.0].children[r.value.value.1] == h
  {
    match d.nodes[h].parent
    case None => Success(None)
    case Some(p) =>
      if p !in d.nodes then Failure(DanglingParent)
      else
        match IndexOf(d.nodes[p].children, h)
        case None => Failure(MissingFromParent)
        case Some(i) => Success(Some((p, i)))
  }

  /** Under the invariant the lookup never panics. */
  lemma GetParentAndIndexTotal(d: Dom, h: NodeId)
    requires Valid(d) && h in d.nodes
    ensures GetParentAndIndex(d, h).Success?
  {
  }

  /** Unlinks `h` from position `i` of `p`'s children and clears its parent. */
  function Detach(d: Dom, h: NodeId, p: NodeId, i: nat): (r: Dom)
    requires h in d.nodes && p in d.nodes && i < |d.nodes[p].children|
  {
    var n1 := d.nodes[p := d.nodes[p].(children := RemoveAt(d.nodes[p].children, i))];
    d.(nodes := n1[h := n1[h].(parent := None)])
  }

  /** `remove_from_parent`: drops the one entry for `h` from its parent's
      children, keeping the others in order, and clears `h`'s parent; a
      parentless node is left alone. */
  function RemoveFromParent(d: Dom, h: NodeId): (r: Result<Dom, Panic>)
    requires h in d.nodes
    ensures r.Success? <==> GetParentAndIndex(d, h).Success?
    ensures d.nodes[h].parent.None? ==> r == Success(d)
    ensures r.Success? ==> r.value.nodes.Keys == d.nodes.Keys && r.value.nodes[h].parent.None?
    ensures r.Success? ==> r.value.document == d.document && r.value.next == d.next
    ensures r.Success? ==> Relinked(d, r.value, {h}, ParentSet(d, h))
    ensures r.Success? && d.nodes[h].parent.Some? ==>
              var p := d.nodes[h].parent.value;
              var i := GetParentAndIndex(d, h).value.value.1;
              && r.value.nodes[p].children == d.nodes[p].children[..i] + d.nodes[p].children[i + 1..]
              && (forall k :: k in d.nodes && k != p && k != h ==> r.value.nodes[k] == d.nodes[k])
              && r.value.nodes[h].children == (if h == p then r.value.nodes[p].children else d.nodes[h].children)
              && r.value.nodes[h].data == d.nodes[h].data && r.value.nodes[p].data == d.nodes[p].data
  {
    match GetParentAndIndex(d, h)
    case Failure(e) => Failure(e)
    case Success(None) => Success(d)
    case Success(Some((p, i))) => Success(Detach(d, h, p, i))
  }

  /** What unlinking changes: `p`'s list loses entry `i`, `h` loses its parent. */
  lemma DetachFacts(d: Dom, h: NodeId, p: NodeId, i: nat)
    requires h in d.nodes && p in d.nodes && i < |d.nodes[p].children|
    ensures var d' := Detach(d, h, p, i);
            && d'.nodes.Keys == d.nodes.Keys && d'.next == d.next && d'.document == d.document
            && (forall k :: k in d.nodes ==> d'.nodes[k].children == if k == p then RemoveAt(d.nodes[p].children, i) else d.nodes[k].children)
            && (forall k :: k in d.nodes ==> d'.nodes[k].parent == if k == h then None else d.nodes[k].parent)
  {
  }

  /** Unlinking keeps the invariant, and afterwards no node lists `h`. */
  lemma DetachValid(d: Dom, h: NodeId, p: NodeId, i: nat)
    requires Valid(d) && h in d.nodes && p in d.nodes && i < |d.nodes[p].children|
    requires d.nodes[p].children[i] == h
    ensures Valid(Detach(d, h, p, i))
    ensures forall q :: q in d.nodes ==> h !in Detach(d, h, p, i).nodes[q].children
  {
    var d' := Detach(d, h, p, i);
    DetachFacts(d, h, p, i);
    var cs := d.nodes[p].children;
    RemoveAtNoDup(cs, i);
    assert d.nodes[h].parent == Some(p);
    UnlistedAfterDetach(d, d', h, p);
    DetachPointBack(d, d', h, p, i);
    DetachPointDown(d, d', h, p, i);
    assert ChildrenDistinct(d');
  }

  lemma DetachPointDown(d: Dom, d': Dom, h: NodeId, p: NodeId, i: nat)
    requires Valid(d) && h in d.nodes && p in d.nodes && i < |d.nodes[p].children|
    requires d.nodes[p].children[i] == h
    requires d'.nodes.Keys == d.nodes.Keys
    requires forall k :: k in d.nodes ==> d'.nodes[k].children == if k == p then RemoveAt(d.nodes[p].children, i) else d.nodes[k].children
    requires forall k :: k in d.nodes ==> d'.nodes[k].parent == if k == h then None else d.nodes[k].parent
    ensures ParentsPointDown(d')
  {
    RemoveAtNoDup(d.nodes[p].children, i);
    forall c | c in d'.nodes && d'.nodes[c].parent.Some?
      ensures d'.nodes[c].parent.value in d'.nodes && c in d'.nodes[d'.nodes[c].parent.value].children
    {
      assert c != h;
    }
  }

  /** After unlinking, only the detached node's former parent could have listed it, and it no longer does. */
  lemma UnlistedAfterDetach(d: Dom, d': Dom, h: NodeId, p: NodeId)
    requires Valid(d) && h in d.nodes && p in d.nodes && d.nodes[h].parent == Some(p)
    requires d'.nodes.Keys == d.nodes.Keys
    requires forall k :: k in d.nodes && k != p ==> d'.nodes[k].children == d.nodes[k].children
    requires h !in d'.nodes[p].children
    ensures forall q :: q in d.nodes ==> h !in d'.nodes[q].children
  {
    ListedParents(d);
  }

  lemma DetachPointBack(d: Dom, d': Dom, h: NodeId, p: NodeId, i: nat)
    requires Valid(d) && h in d.nodes && p in d.nodes && i < |d.nodes[p].children|
    requires d.nodes[p].children[i] == h
    requires d'.nodes.Keys == d.nodes.Keys
    requires forall k :: k in d.nodes ==> d'.nodes[k].children == if k == p then RemoveAt(d.nodes[p].children, i) else d.nodes[k].children
    requires forall k :: k in d.nodes ==> d'.nodes[k].parent == if k == h then None else d.nodes[k].parent
    ensures forall q, j :: q in d'.nodes && 0 <= j < |d'.nodes[q].children| ==>
              d'.nodes[q].children[j] in d'.nodes && d'.nodes[d'.nodes[q].children[j]].parent == Some(q)
  {
    var cs := d.nodes[p].children;
    RemoveAtNoDup(cs, i);
    forall q, j | q in d'.nodes && 0 <= j < |d'.nodes[q].children|
      ensures d'.nodes[q].children[j] in d'.nodes && d'.nodes[d'.nodes[q].children[j]].parent == Some(q)
    {
      var x := d'.nodes[q].children[j];
      if q == p {
        assert x in RemoveAt(cs, i);
        var k :| 0 <= k < |cs| && cs[k] == x;
      } else {
        assert x == d.nodes[q].children[j];
        assert x != h;
      }
    }
  }

  /** Removal never panics under the invariant, and keeps it. */
  lemma RemoveFromParentValid(d: Dom, h: NodeId)
    requires Valid(d) && h in d.nodes
    ensures RemoveFromParent(d, h).Success? && Valid(RemoveFromParent(d, h).value)
    ensures forall q :: q in d.nodes ==> h !in RemoveFromParent(d, h).value.nodes[q].children
  {
    if d.nodes[h].parent.Some? {
      var (p, i) := GetParentAndIndex(d, h).value.value;
      DetachValid(d, h, p, i);
    } else {
      ListedParents(d);
    }
  }

  /** `d'` is `d` with `c` linked in at position `i` of `p`'s children: nothing else changes. */
  predicate Attached(d: Dom, d': Dom, p: NodeId, i: nat, c: NodeId)
    requires p in d.nodes && c in d.nodes && i <= |d.nodes[p].children|
  {
    && d'.nodes.Keys == d.nodes.Keys && d'.document == d.document && d'.next == d.next && d'.quirksMode == d.quirksMode
    && d'.nodes[p].children == InsertAt(d.nodes[p].children, i, c)
    && (forall k :: k in d.nodes && k != p ==> d'.nodes[k].children == d.nodes[k].children)
    && (forall k :: k in d.nodes ==> d'.nodes[k].parent == (if k == c then Some(p) else d.nodes[k].parent))
    && (forall k :: k in d.nodes ==> d'.nodes[k].data == d.nodes[k].data)
  }

  /** Sets `c`'s parent to `p` and puts `c` at position `i` of `p`'s children. */
  function AttachAt(d: Dom, p: NodeId, i: nat, c: NodeId): (r: Dom)
    requires p in d.nodes && c in d.nodes && i <= |d.nodes[p].children|
    ensures Attached(d, r, p, i, c)
    ensures Relinked(d, r, {c}, {p})
  {
    var n1 := d.nodes[c := d.nodes[c].(parent := Some(p))];
    d.(nodes := n1[p := n1[p].(children := InsertAt(n1[p].children, i, c))])
  }

  /** Linking a node that no one lists keeps the invariant. */
  lemma AttachValid(d: Dom, p: NodeId, i: nat, c: NodeId)
    requires Valid(d) && p in d.nodes && c in d.nodes && i <= |d.nodes[p].children|
    requires forall q :: q in d.nodes ==> c !in d.nodes[q].children
    ensures Valid(AttachAt(d, p, i, c))
  {
    var d' := AttachAt(d, p, i, c);
    AttachPointBack(d, d', p, i, c);
    AttachPointDown(d, d', p, i, c);
    AttachDistinct(d, d', p, i, c);
  }

  lemma AttachPointBack(d: Dom, d': Dom, p: NodeId, i: nat, c: NodeId)
    requires Valid(d) && p in d.nodes && c in d.nodes && i <= |d.nodes[p].children|
    requires forall q :: q in d.nodes ==> c !in d.nodes[q].children
    requires Attached(d, d', p, i, c)
    ensures Closed(d') && ChildrenPointBack(d')
  {
    var cs := d.nodes[p].children;
    ListedParents(d);
    forall q, j | q in d'.nodes && 0 <= j < |d'.nodes[q].children|
      ensures d'.nodes[q].children[j] in d'.nodes && d'.nodes[d'.nodes[q].children[j]].parent == Some(q)
    {
      var x := d'.nodes[q].children[j];
      if q == p && j < i {
        assert x == cs[j];
      } else if q == p && j > i {
        assert x == cs[j - 1];
      } else if q != p {
        assert x == d.nodes[q].children[j];
      }
    }
  }

  lemma AttachPointDown(d: Dom, d': Dom, p: NodeId, i: nat, c: NodeId)
    requires Valid(d) && p in d.nodes && c in d.nodes && i <= |d.nodes[p].children|
    requires Attached(d, d', p, i, c)
    ensures ParentsPointDown(d')
  {
    var cs := d.nodes[p].children;
    var cs' := d'.nodes[p].children;
    forall c' | c' in d'.nodes && d'.nodes[c'].parent.Some?
      ensures d'.nodes[c'].parent.value in d'.nodes && c' in d'.nodes[d'.nodes[c'].parent.value].children
    {
      if c' == c {
        assert cs'[i] == c;
      } else if d.nodes[c'].parent == Some(p) {
        var j :| 0 <= j < |cs| && cs[j] == c';
        if j < i { assert cs'[j] == c'; } else { assert cs'[j + 1] == c'; }
      }
    }
  }

  lemma AttachDistinct(d: Dom, d': Dom, p: NodeId, i: nat, c: NodeId)
    requires Valid(d) && p in d.nodes && c in d.nodes && i <= |d.nodes[p].children|
    requires forall q :: q in d.nodes ==> c !in d.nodes[q].children
    requires Attached(d, d', p, i, c)
    ensures ChildrenDistinct(d')
  {
    var cs := d.nodes[p].children;
    var cs' := d'.nodes[p].children;
    assert c !in cs;
    forall a, b | 0 <= a < b < |cs'| ensures cs'[a] != cs'[b] {
      if a == i {
        assert cs'[b] == cs[b - 1];
      } else if b == i {
        assert cs'[a] == cs[a];
      } else if b < i {
        assert cs'[a] == cs[a] && cs'[b] == cs[b];
      } else if a < i {
        assert cs'[a] == cs[a] && cs'[b] == cs[b - 1];
      } else {
        assert cs'[a] == cs[a - 1] && cs'[b] == cs[b - 1];
      }
    }
  }

  /** `Appendable::append`: asserts that `child` has no parent, then makes it
      `parent`'s last child. */
  function AppendChild(d: Dom, parent: NodeId, child: NodeId): (r: Result<Dom, Panic>)
    requires parent in d.nodes && child in d.nodes
    ensures r.Failure? <==> d.nodes[child].parent.Some?
    ensures r.Success? ==>
              && r.value.nodes.Keys == d.nodes.Keys
              && r.value.nodes[child].parent == Some(parent)
              && r.value.nodes[parent].children == d.nodes[parent].children + [child]
              && (forall k :: k in d.nodes && k != parent && k != child ==> r.value.nodes[k] == d.nodes[k])
              && r.value.document == d.document && r.value.next == d.next
              && Relinked(d, r.value, {child}, {parent})
  {
    if d.nodes[child].parent.Some? then Failure(ChildHasParent)
    else Success(AttachAt(d, parent, |d.nodes[parent].children|, child))
  }

  /** A successful append keeps the invariant. */
  lemma AppendChildValid(d: Dom, parent: NodeId, child: NodeId)
    requires Valid(d) && parent in d.nodes && child in d.nodes
    requires d.nodes[child].parent.None?
    ensures AppendChild(d, parent, child).Success? && Valid(AppendChild(d, parent, child).value)
  {
    Unlisted(d, child);
    AttachValid(d, parent, |d.nodes[parent].children|, child);
  }

  /** A parentless node is listed by no one. */
  lemma Unlisted(d: Dom, c: NodeId)
    requires Valid(d) && c in d.nodes && d.nodes[c].parent.None?
    ensures forall q :: q in d.nodes ==> c !in d.nodes[q].children
  {
    ListedParents(d);
  }

  /** `append_to_existing_text`: appends to a text node's contents and reports whether it did. */
  function AppendToExistingText(d: Dom, h: NodeId, text: string): (r: (Dom, bool))
    requires h in d.nodes
    ensures r.1 <==> d.nodes[h].data.Text?
    ensures !r.1 ==> r.0 == d
    ensures r.1 ==> r.0.nodes == d.nodes[h := d.nodes[h].(data := Text(d.nodes[h].data.contents + text))]
    ensures r.1 ==> r.0 == d.(nodes := d.nodes[h := d.nodes[h].(data := Text(d.nodes[h].data.contents + text))])
    ensures r.0.document == d.document && r.0.next == d.next && r.0.quirksMode == d.quirksMode
  {
    match d.nodes[h].data
    case Text(contents) =>
      (d.(nodes := d.nodes[h := d.nodes[h].(data := Text(contents + text))]), true)
    case _ => (d, false)
  }

  /** Changing a node's data leaves the links, and so the invariant, alone. */
  lemma SetDataValid(d: Dom, h: NodeId, data: NodeData)
    requires Valid(d) && h in d.nodes
    ensures Valid(d.(nodes := d.nodes[h := d.nodes[h].(data := data)]))
  {
  }

  /** `TreeSink::append`: text merges into a trailing text child; anything
      else becomes the new last child. */
  function SinkAppend(d: Dom, parent: NodeId, child: NodeOrText): (r: Result<Dom, Panic>)
    requires Closed(d) && parent in d.nodes && (child.AppendNode? ==> child.node in d.nodes)
    ensures var kids := d.nodes[parent].children;
            (child.AppendText? && |kids| > 0 && d.nodes[kids[|kids| - 1]].data.Text?) ==>
              && r.Success?
              && var last := kids[|kids| - 1];
                 && r.value.nodes == d.nodes[last := d.nodes[last].(data := Text(d.nodes[last].data.contents + child.text))]
                 && r.value == d.(nodes := d.nodes[last := d.nodes[last].(data := Text(d.nodes[last].data.contents + child.text))])
    ensures var kids := d.nodes[parent].children;
            (child.AppendText? && !(|kids| > 0 && d.nodes[kids[|kids| - 1]].data.Text?)) ==>
              && r.Success? && d.nodes.Keys <= r.value.nodes.Keys
              && r.value.document == d.document && r.value.quirksMode == d.quirksMode
              && |r.value.nodes[parent].children| == |kids| + 1
              && var n := r.value.nodes[parent].children[|kids|];
                 && n !in d.nodes && r.value.nodes.Keys == d.nodes.Keys + {n}
                 && r.value.nodes[n] == Node(Text(child.text), Some(parent), [])
                 && r.value.nodes[parent] == d.nodes[parent].(children := kids + [n])
                 && (forall k :: k in d.nodes && k != parent ==> r.value.nodes[k] == d.nodes[k])
    ensures child.AppendNode? ==> r == AppendChild(d, parent, child.node)
  {
    var kids := d.nodes[parent].children;
    var merged :=
      if child.AppendText? && |kids| > 0 then AppendToExistingText(d, kids[|kids| - 1], child.text)
      else (d, false);
    if merged.1 then Success(merged.0)
    else
      match child
      case AppendText(text) =>
        var (d1, n) := NewNode(d, Text(text));
        AppendChild(d1, parent, n)
      case AppendNode(node) => AppendChild(d, parent, node)
  }

  /** `TreeSink::append` keeps the invariant, and fails only when asked to append a node that already has a parent. */
  lemma SinkAppendValid(d: Dom, parent: NodeId, child: NodeOrText)
    requires Valid(d) && parent in d.nodes && (child.AppendNode? ==> child.node in d.nodes)
    ensures SinkAppend(d, parent, child).Failure? <==> child.AppendNode? && d.nodes[child.node].parent.Some?
    ensures SinkAppend(d, parent, child).Success? ==> Valid(SinkAppend(d, parent, child).value)
  {
    var kids := d.nodes[parent].children;
    if child.AppendText? && |kids| > 0 && d.nodes[kids[|kids| - 1]].data.Text? {
      var h := kids[|kids| - 1];
      SetDataValid(d, h, Text(d.nodes[h].data.contents + child.text));
    } else if child.AppendText? {
      var (d1, n) := NewNode(d, Text(child.text));
      NewNodeValid(d, Text(child.text));
      AppendChildValid(d1, parent, n);
    } else if d.nodes[child.node].parent.None? {
      AppendChildValid(d, parent, child.node);
    }
  }

  /** Detaches `c` from wherever it is, then puts it at position `i` of
      `p`'s children, panicking when `i` is past the end of the list left
      after detaching. */
  function InsertDetached(d: Dom, p: NodeId, i: nat, c: NodeId): (r: Result<Dom, Panic>)
    requires p in d.nodes && c in d.nodes
    ensures r.Success? ==>
              && r.value.nodes.Keys == d.nodes.Keys && r.value.document == d.document
              && r.value.nodes[c].parent == Some(p)
              && i < |r.value.nodes[p].children| && r.value.nodes[p].children[i] == c
              && Relinked(d, r.value, {c}, {p} + ParentSet(d, c))
    ensures r.Success? && d.nodes[c].parent.Some? && GetParentAndIndex(d, c).Success? ==>
              var q := d.nodes[c].parent.value;
              var j := GetParentAndIndex(d, c).value.value.1;
              && (q != p ==> && r.value.nodes[q].children == RemoveAt(d.nodes[q].children, j)
                             && i <= |d.nodes[p].children|
                             && r.value.nodes[p].children == InsertAt(d.nodes[p].children, i, c))
              && (q == p ==> && i < |d.nodes[p].children|
                             && r.value.nodes[p].children == InsertAt(RemoveAt(d.nodes[p].children, j), i, c))
    ensures d.nodes[c].parent.None? ==>
              && (r.Success? <==> i <= |d.nodes[p].children|)
              && (r.Success? ==> r.value.nodes[p].children == InsertAt(d.nodes[p].children, i, c))
  {
    match RemoveFromParent(d, c)
    case Failure(e) => Failure(e)
    case Success(d1) =>
      if i <= |d1.nodes[p].children| then Success(AttachAt(d1, p, i, c)) else Failure(InsertOutOfRange)
  }

  /** `append_before_sibling`: the index of `sibling` is taken first; text
      merges into a text node just before it (never at index 0); otherwise
      the node is detached and inserted at that index. */
  function AppendBeforeSibling(d: Dom, sibling: NodeId, child: NodeOrText): (r: Result<Dom, Panic>)
    requires Closed(d) && sibling in d.nodes && (child.AppendNode? ==> child.node in d.nodes)
    ensures d.nodes[sibling].parent.None? ==> r == Failure(NoParent)
    ensures r.Success? ==> r.value.nodes.Keys >= d.nodes.Keys && r.value.document == d.document
  {
    match GetParentAndIndex(d, sibling)
    case Failure(e) => Failure(e)
    case Success(None) => Failure(NoParent)
    case Success(Some((p, i))) =>
      match child
      case AppendText(text) =>
        var merged := if i == 0 then (d, false) else AppendToExistingText(d, d.nodes[p].children[i - 1], text);
        if merged.1 then Success(merged.0)
        else
          var (d1, n) := NewNode(d, Text(text));
          InsertDetached(d1, p, i, n)
      case AppendNode(node) => InsertDetached(d, p, i, node)
  }

  /** Inserting a detached node at an index no larger than the list before
      detaching never panics under the invariant, and keeps it. */
  lemma InsertDetachedValid(d: Dom, p: NodeId, i: nat, c: NodeId)
    requires Valid(d) && p in d.nodes && c in d.nodes && i < |d.nodes[p].children|
    ensures InsertDetached(d, p, i, c).Success? && Valid(InsertDetached(d, p, i, c).value)
  {
    RemoveFromParentValid(d, c);
    var d1 := RemoveFromParent(d, c).value;
    AttachValid(d1, p, i, c);
  }

  /** Under the invariant `append_before_sibling` panics exactly when the
      sibling has no parent, and otherwise keeps the invariant. */
  lemma AppendBeforeSiblingValid(d: Dom, sibling: NodeId, child: NodeOrText)
    requires Valid(d) && sibling in d.nodes && (child.AppendNode? ==> child.node in d.nodes)
    ensures AppendBeforeSibling(d, sibling, child).Failure? <==> d.nodes[sibling].parent.None?
    ensures AppendBeforeSibling(d, sibling, child).Success? ==> Valid(AppendBeforeSibling(d, sibling, child).value)
  {
    if d.nodes[sibling].parent.Some? {
      var (p, i) := GetParentAndIndex(d, sibling).value.value;
      match child
      case AppendText(text) =>
        if i > 0 && d.nodes[d.nodes[p].children[i - 1]].data.Text? {
          var h := d.nodes[p].children[i - 1];
          SetDataValid(d, h, Text(d.nodes[h].data.contents + text));
        } else {
          var (d1, n) := NewNode(d, Text(text));
          NewNodeValid(d, Text(text));
          InsertDetachedValid(d1, p, i, n);
        }
      case AppendNode(node) =>
        InsertDetachedValid(d, p, i, node);
    }
  }

  /** A node from elsewhere lands directly before the sibling; nothing else moves in the parent's list. */
  lemma AppendBeforeSiblingPlacesBefore(d: Dom, sibling: NodeId, node: NodeId)
    requires Valid(d) && sibling in d.nodes && node in d.nodes
    requires d.nodes[sibling].parent.Some? && d.nodes[node].parent != d.nodes[sibling].parent
    ensures var p := d.nodes[sibling].parent.value;
            var i := GetParentAndIndex(d, sibling).value.value.1;
            var r := AppendBeforeSibling(d, sibling, AppendNode(node));
            && r.Success?
            && r.value.nodes[p].children == d.nodes[p].children[..i] + [node] + d.nodes[p].children[i..]
            && r.value.nodes[node].parent == Some(p)
            && Relinked(d, r.value, {node}, {p} + ParentSet(d, node))
            && (d.nodes[node].parent.Some? ==>
                  var q := d.nodes[node].parent.value;
                  var j := GetParentAndIndex(d, node).value.value.1;
                  r.value.nodes[q].children == RemoveAt(d.nodes[q].children, j))
  {
    var (p, i) := GetParentAndIndex(d, sibling).value.value;
    RemoveFromParentValid(d, node);
    var d1 := RemoveFromParent(d, node).value;
    assert node != p ==> d1.nodes[p] == d.nodes[p] by {
      if d.nodes[node].parent.Some? {
        assert d.nodes[node].parent.value != p;
      }
    }
    if node == p {
      assert d.nodes[node].parent.None? ==> d1 == d;
    }
  }

  /** A node already listed by the sibling's parent, at position `k`, is
      first removed and then inserted at the sibling's old index `i`, which
      was taken before the removal. So an earlier sibling (`k < i`) ends up
      just after `sibling`, a later one (`k > i`) just before it, and a node
      placed before itself (`k == i`) leaves the list as it was. */
  lemma AppendBeforeSiblingSameParent(d: Dom, p: NodeId, node: NodeId, sibling: NodeId, k: nat, i: nat)
    requires Valid(d) && p in d.nodes
    requires k < |d.nodes[p].children| && i < |d.nodes[p].children|
    requires d.nodes[p].children[k] == node && d.nodes[p].children[i] == sibling
    ensures var kids := d.nodes[p].children;
            var r := AppendBeforeSibling(d, sibling, AppendNode(node));
            && r.Success?
            && r.value.nodes[p].children == InsertAt(RemoveAt(kids, k), i, node)
            && r.value.nodes[node].parent == Some(p)
            && Relinked(d, r.value, {node}, {p})
            && (k < i ==> r.value.nodes[p].children[i - 1] == sibling && r.value.nodes[p].children[i] == node)
            && (k > i ==> r.value.nodes[p].children[i] == node && r.value.nodes[p].children[i + 1] == sibling)
            && (k == i ==> r.value.nodes[p].children == kids)
  {
    var kids := d.nodes[p].children;
    assert NoDup(kids);
    assert d.nodes[sibling].parent == Some(p) && d.nodes[node].parent == Some(p);
    assert GetParentAndIndex(d, sibling) == Success(Some((p, i)));
    assert GetParentAndIndex(d, node) == Success(Some((p, k)));
    var d1 := RemoveFromParent(d, node).value;
    assert d1.nodes[p].children == RemoveAt(kids, k);
    var r := AttachAt(d1, p, i, node);
    assert InsertDetached(d, p, i, node) == Success(r);
    assert AppendBeforeSibling(d, sibling, AppendNode(node)) == Success(r);
    MoveWithin(kids, k, i);
  }

  /** Moving the entry at `k` to index `i` of the shortened list, as seen from
      the entry that was at `i`. */
  lemma MoveWithin<T>(kids: seq<T>, k: nat, i: nat)
    requires k < |kids| && i < |kids|
    ensures var m := InsertAt(RemoveAt(kids, k), i, kids[k]);
            && (k < i ==> m[i - 1] == kids[i] && m[i] == kids[k])
            && (k > i ==> m[i] == kids[k] && m[i + 1] == kids[i])
            && (k == i ==> m == kids)
  {
    if k == i {
      assert InsertAt(RemoveAt(kids, k), i, kids[k]) == kids;
    }
  }

  /** Text before a sibling at position `i`: merged into the text node at
      `i - 1` when there is one, otherwise a fresh text node inserted at `i`
      (always so at position 0); the parent's other entries keep their order. */
  lemma AppendBeforeSiblingText(d: Dom, sibling: NodeId, text: string)
    requires Valid(d) && sibling in d.nodes && d.nodes[sibling].parent.Some?
    ensures var p := d.nodes[sibling].parent.value;
            var i := GetParentAndIndex(d, sibling).value.value.1;
            var kids := d.nodes[p].children;
            var r := AppendBeforeSibling(d, sibling, AppendText(text));
            && r.Success?
            && (i > 0 && d.nodes[kids[i - 1]].data.Text? ==>
                  var h := kids[i - 1];
                  && r.value.nodes.Keys == d.nodes.Keys && r.value.nodes[p].children == kids
                  && r.value.nodes[h].data == Text(d.nodes[h].data.contents + text)
                  && r.value.nodes == d.nodes[h := d.nodes[h].(data := Text(d.nodes[h].data.contents + text))]
                  && r.value.document == d.document && r.value.quirksMode == d.quirksMode)
            && (!(i > 0 && d.nodes[kids[i - 1]].data.Text?) ==>
                  && r.value.nodes[p].children == kids[..i] + [r.value.nodes[p].children[i]] + kids[i..]
                  && var n := r.value.nodes[p].children[i];
                     n !in d.nodes && r.value.nodes.Keys == d.nodes.Keys + {n}
                     && r.value.nodes[n] == Node(Text(text), Some(p), [])
                     && Relinked(d, r.value, {}, {p}))
  {
    var (p, i) := GetParentAndIndex(d, sibling).value.value;
    var kids := d.nodes[p].children;
    if i > 0 && d.nodes[kids[i - 1]].data.Text? {
      var h := kids[i - 1];
      assert AppendBeforeSibling(d, sibling, AppendText(text)) == Success(AppendToExistingText(d, h, text).0);
    } else {
      FreshTextBefore(d, sibling, text, p, i);
    }
  }

  /** With no text node just before the sibling, a fresh text node is inserted at its index. */
  lemma FreshTextIsInsert(d: Dom, sibling: NodeId, text: string, p: NodeId, i: nat)
    requires Closed(d) && sibling in d.nodes
    requires GetParentAndIndex(d, sibling) == Success(Some((p, i)))
    requires !(i > 0 && d.nodes[d.nodes[p].children[i - 1]].data.Text?)
    ensures AppendBeforeSibling(d, sibling, AppendText(text))
            == InsertDetached(NewNode(d, Text(text)).0, p, i, NewNode(d, Text(text)).1)
  {
  }

  /** The second case above: no text node just before the sibling. */
  lemma FreshTextBefore(d: Dom, sibling: NodeId, text: string, p: NodeId, i: nat)
    requires Closed(d) && sibling in d.nodes
    requires GetParentAndIndex(d, sibling) == Success(Some((p, i)))
    requires !(i > 0 && d.nodes[d.nodes[p].children[i - 1]].data.Text?)
    ensures var kids := d.nodes[p].children;
            var r := AppendBeforeSibling(d, sibling, AppendText(text));
            && r.Success?
            && r.value.nodes[p].children == kids[..i] + [r.value.nodes[p].children[i]] + kids[i..]
            && var n := r.value.nodes[p].children[i];
               n !in d.nodes && r.value.nodes.Keys == d.nodes.Keys + {n}
               && r.value.nodes[n] == Node(Text(text), Some(p), [])
               && Relinked(d, r.value, {}, {p})
  {
    var kids := d.nodes[p].children;
    var (d1, n) := NewNode(d, Text(text));
    FreshTextIsInsert(d, sibling, text, p, i);
    assert d1.nodes[n].parent.None? && d1.nodes[p].children == kids;
    var r := InsertDetached(d1, p, i, n);
    assert r.Success? && r.value.nodes[p].children == InsertAt(kids, i, n);
    assert InsertAt(kids, i, n) == kids[..i] + [n] + kids[i..];
    assert Relinked(d1, r.value, {n}, {p});
  }

  /** `append_based_on_parent_node`: before `element` when it has a parent,
      else appended to `prevElement`, so that a node lands as
      `prevElement`'s last child and text is never refused. */
  function AppendBasedOnParentNode(d: Dom, element: NodeId, prevElement: NodeId, child: NodeOrText): (r: Result<Dom, Panic>)
    requires Closed(d) && element in d.nodes && prevElement in d.nodes
    requires child.AppendNode? ==> child.node in d.nodes
    ensures r.Success? ==> d.nodes.Keys <= r.value.nodes.Keys && r.value.document == d.document
    ensures d.nodes[element].parent.None? && child.AppendText? ==> r.Success?
    ensures d.nodes[element].parent.None? && child.AppendNode? ==>
              && (r.Success? <==> d.nodes[child.node].parent.None?)
              && (r.Success? ==>
                    && r.value.nodes[prevElement].children == d.nodes[prevElement].children + [child.node]
                    && r.value.nodes[child.node].parent == Some(prevElement))
  {
    if d.nodes[element].parent.Some? then AppendBeforeSibling(d, element, child)
    else SinkAppend(d, prevElement, child)
  }

  /** Under the invariant the dispatch fails only when it appends a node
      that already has a parent to a parentless element's predecessor, and
      otherwise keeps the invariant. */
  lemma AppendBasedOnParentNodeValid(d: Dom, element: NodeId, prevElement: NodeId, child: NodeOrText)
    requires Valid(d) && element in d.nodes && prevElement in d.nodes
    requires child.AppendNode? ==> child.node in d.nodes
    ensures var r := AppendBasedOnParentNode(d, element, prevElement, child);
            && (r.Failure? <==> d.nodes[element].parent.None? && child.AppendNode? && d.nodes[child.node].parent.Some?)
            && (r.Success? ==> Valid(r.value))
            && (d.nodes[element].parent.Some? ==> r == AppendBeforeSibling(d, element, child))
            && (d.nodes[element].parent.None? ==> r == SinkAppend(d, prevElement, child))
  {
    if d.nodes[element].parent.Some? {
      AppendBeforeSiblingValid(d, element, child);
    } else {
      SinkAppendValid(d, prevElement, child);
    }
  }

  /** The names already present. */
  function NameSet(attrs: seq<Markup.Attribute>): set<Markup.QualName> {
    set a | a in attrs :: a.name
  }

  /** `xs` occurs in `ys` in order, possibly with gaps. */
  predicate Subsequence<T(==)>(xs: seq<T>, ys: seq<T>)
    decreases |ys|
  {
    if |xs| == 0 then true
    else if |ys| == 0 then false
    else if xs[0] == ys[0] then Subsequence(xs[1..], ys[1..])
    else Subsequence(xs, ys[1..])
  }

  /** The given attributes whose names are not in `names`, in their given order. */
  function Missing(attrs: seq<Markup.Attribute>, names: set<Markup.QualName>): (r: seq<Markup.Attribute>)
    ensures forall a :: a in r <==> a in attrs && a.name !in names
    ensures forall a :: multiset(r)[a] == if a.name in names then 0 else multiset(attrs)[a]
    ensures Subsequence(r, attrs)
    decreases |attrs|
  {
    if |attrs| == 0 then []
    else
      var rest := Missing(attrs[1..], names);
      assert attrs == [attrs[0]] + attrs[1..];
      if attrs[0].name in names then
        SubsequenceSkip(rest, attrs);
        rest
      else
        [attrs[0]] + rest
  }

  lemma SubsequenceSkip<T>(xs: seq<T>, ys: seq<T>)
    requires |ys| > 0 && Subsequence(xs, ys[1..])
    ensures Subsequence(xs, ys)
    decreases |ys|, 0
  {
    if |xs| > 0 && xs[0] == ys[0] {
      SubsequenceDrop(xs, ys[1..]);
    }
  }

  lemma SubsequenceDrop<T>(xs: seq<T>, ys: seq<T>)
    requires |xs| > 0 && Subsequence(xs, ys)
    ensures Subsequence(xs[1..], ys)
    decreases |ys|, 1
  {
    if xs[0] != ys[0] {
      SubsequenceDrop(xs, ys[1..]);
      SubsequenceSkip(xs[1..], ys);
    } else if |xs| > 1 {
      SubsequenceSkip(xs[1..], ys);
    }
  }

  /** `add_attrs_if_missing`: keeps the existing attributes and appends, in
      order, the new ones whose name is not already present; panics on a
      node that is not an element. */
  function AddAttrsIfMissing(d: Dom, target: NodeId, attrs: seq<Markup.Attribute>): (r: Result<Dom, Panic>)
    requires target in d.nodes
    ensures r.Failure? <==> !d.nodes[target].data.Element?
    ensures r.Success? ==> r.value.nodes.Keys == d.nodes.Keys
    ensures r.Success? ==>
              var before := d.nodes[target].data.attrs;
              var now := r.value.nodes[target].data;
              && now.Element? && now.qualName == d.nodes[target].data.qualName
              && before <= now.attrs
              && (forall a :: a in now.attrs[|before|..] <==> a in attrs && a.name !in NameSet(before))
              && (forall a :: multiset(now.attrs[|before|..])[a] == if a.name in NameSet(before) then 0 else multiset(attrs)[a])
              && Subsequence(now.attrs[|before|..], attrs)
              && r.value.nodes == d.nodes[target := d.nodes[target].(data := now)]
              && r.value == d.(nodes := d.nodes[target := d.nodes[target].(data := now)])
  {
    match d.nodes[target].data
    case Element(name, existing) =>
      var added := Missing(attrs, NameSet(existing));
      assert (existing + added)[|existing|..] == added;
      Success(d.(nodes := d.nodes[target := d.nodes[target].(data := Element(name, existing + added))]))
    case _ => Failure(NotAnElement)
  }

  /** The panic the reparenting loop meets first, if any. The loop sets each
      child's parent to the new parent before asserting that the previous
      one was `node`, so a child it has already moved (one in `visited`)
      fails that assertion on its second visit. */
  function CheckPreviousParents(d: Dom, cs: seq<NodeId>, node: NodeId, visited: seq<NodeId>): (r: Option<Panic>)
    requires node in d.nodes && forall k :: 0 <= k < |cs| ==> cs[k] in d.nodes
    ensures r.None? <==> && NoDup(cs)
                         && forall k :: 0 <= k < |cs| ==> cs[k] !in visited && d.nodes[cs[k]].parent == Some(node)
    decreases |cs|
  {
    if |cs| == 0 then None
    else if cs[0] in visited then Some(WrongPreviousParent)
    else if d.nodes[cs[0]].parent.None? then Some(NoPreviousParent)
    else if d.nodes[cs[0]].parent.value !in d.nodes then Some(DanglingParent)
    else if d.nodes[cs[0]].parent != Some(node) then Some(WrongPreviousParent)
    else
      var r := CheckPreviousParents(d, cs[1..], node, visited + [cs[0]]);
      assert forall k :: 1 <= k < |cs| ==> cs[k] == cs[1..][k - 1];
      assert r.None? ==> NoDup(cs) by {
        if r.None? {
          forall a, b | 0 <= a < b < |cs| ensures cs[a] != cs[b] {
            if a == 0 {
              assert cs[1..][b - 1] !in visited + [cs[0]];
            } else {
              assert cs[a] == cs[1..][a - 1] && cs[b] == cs[1..][b - 1];
            }
          }
        }
      }
      assert NoDup(cs) ==> NoDup(cs[1..]) && cs[0] !in cs[1..] by {
        if NoDup(cs) {
          forall k | 0 <= k < |cs[1..]| ensures cs[1..][k] != cs[0] {
            assert cs[1..][k] == cs[k + 1];
          }
        }
      }
      r
  }

  /** A child listed twice makes the reparenting loop panic, whatever its parent. */
  lemma RepeatedChildPanics(d: Dom, node: NodeId, cs: seq<NodeId>, a: nat, b: nat)
    requires node in d.nodes && forall k :: 0 <= k < |cs| ==> cs[k] in d.nodes
    requires a < b < |cs| && cs[a] == cs[b]
    ensures CheckPreviousParents(d, cs, node, []).Some?
  {
  }

  /** `d'` is `d` with every child of `node` moved, in order, to the end of
      `newParent`'s children: `node` is left childless, the moved nodes name
      `newParent` as parent, and nothing else changes. */
  predicate Reparented(d: Dom, d': Dom, node: NodeId, newParent: NodeId)
    requires node in d.nodes && newParent in d.nodes
  {
    var cs := d.nodes[node].children;
    && d'.nodes.Keys == d.nodes.Keys && d'.document == d.document && d'.next == d.next && d'.quirksMode == d.quirksMode
    && d'.nodes[newParent].children == d.nodes[newParent].children + cs
    && d'.nodes[node].children == []
    && (forall k :: k in d.nodes && k != node && k != newParent ==> d'.nodes[k].children == d.nodes[k].children)
    && (forall k :: k in d.nodes ==> d'.nodes[k].parent == (if k in cs then Some(newParent) else d.nodes[k].parent))
    && (forall k :: k in d.nodes ==> d'.nodes[k].data == d.nodes[k].data)
  }

  /** Gives every node listed in `cs` the parent `np`. */
  function SetParents(nodes: map<NodeId, Node>, cs: seq<NodeId>, np: NodeId): (r: map<NodeId, Node>)
    ensures r.Keys == nodes.Keys
    ensures forall k :: k in nodes ==> r[k] == (if k in cs then nodes[k].(parent := Some(np)) else nodes[k])
  {
    map k | k in nodes :: if k in cs then nodes[k].(parent := Some(np)) else nodes[k]
  }

  /** `reparent_children`: the two nodes must differ (the same child list
      cannot be borrowed twice) and every child's previous parent must be
      `node`; then the children move as `Reparented` describes. */
  function ReparentChildren(d: Dom, node: NodeId, newParent: NodeId): (r: Result<Dom, Panic>)
    requires Closed(d) && node in d.nodes && newParent in d.nodes
    ensures node == newParent ==> r == Failure(AlreadyBorrowed)
    ensures r.Failure? <==> node == newParent || CheckPreviousParents(d, d.nodes[node].children, node, []).Some?
    ensures r.Success? ==> Reparented(d, r.value, node, newParent)
  {
    if node == newParent then Failure(AlreadyBorrowed)
    else
      var cs := d.nodes[node].children;
      match CheckPreviousParents(d, cs, node, [])
      case Some(e) => Failure(e)
      case None => Success(MoveChildren(d, node, newParent))
  }

  /** The move itself: the children's parent links, then the two child lists. */
  function MoveChildren(d: Dom, node: NodeId, newParent: NodeId): (r: Dom)
    requires node in d.nodes && newParent in d.nodes && node != newParent
    ensures Reparented(d, r, node, newParent)
  {
    var cs := d.nodes[node].children;
    var n1 := SetParents(d.nodes, cs, newParent);
    var n2 := n1[newParent := n1[newParent].(children := n1[newParent].children + cs)];
    d.(nodes := n2[node := n2[node].(children := [])])
  }

  /** Under the invariant reparenting panics only when both nodes are the same, and keeps the invariant. */
  lemma ReparentChildrenValid(d: Dom, node: NodeId, newParent: NodeId)
    requires Valid(d) && node in d.nodes && newParent in d.nodes
    ensures ReparentChildren(d, node, newParent).Failure? <==> node == newParent
    ensures ReparentChildren(d, node, newParent).Success? ==> Valid(ReparentChildren(d, node, newParent).value)
  {
    if node != newParent {
      var cs := d.nodes[node].children;
      assert CheckPreviousParents(d, cs, node, []).None?;
      var d' := ReparentChildren(d, node, newParent).value;
      ListedParents(d);
      ReparentPointBack(d, d', node, newParent);
      ReparentPointDown(d, d', node, newParent);
      ReparentDistinct(d, d', node, newParent);
    }
  }

  lemma ReparentPointBack(d: Dom, d': Dom, node: NodeId, newParent: NodeId)
    requires Valid(d) && node in d.nodes && newParent in d.nodes && node != newParent && Reparented(d, d', node, newParent)
    ensures Closed(d') && ChildrenPointBack(d')
  {
    var cs := d.nodes[node].children;
    var prior := d.nodes[newParent].children;
    ListedParents(d);
    forall q, j | q in d'.nodes && 0 <= j < |d'.nodes[q].children|
      ensures d'.nodes[q].children[j] in d'.nodes && d'.nodes[d'.nodes[q].children[j]].parent == Some(q)
    {
      var x := d'.nodes[q].children[j];
      if q == newParent && j >= |prior| {
        assert x == cs[j - |prior|];
      } else if q == newParent {
        assert x == prior[j];
        assert d.nodes[x].parent == Some(newParent);
      } else {
        assert x == d.nodes[q].children[j];
        assert d.nodes[x].parent == Some(q);
      }
    }
  }

  lemma ReparentPointDown(d: Dom, d': Dom, node: NodeId, newParent: NodeId)
    requires Valid(d) && node in d.nodes && newParent in d.nodes && node != newParent && Reparented(d, d', node, newParent)
    ensures ParentsPointDown(d')
  {
    var cs := d.nodes[node].children;
    var prior := d.nodes[newParent].children;
    var moved := d'.nodes[newParent].children;
    forall c | c in d'.nodes && d'.nodes[c].parent.Some?
      ensures d'.nodes[c].parent.value in d'.nodes && c in d'.nodes[d'.nodes[c].parent.value].children
    {
      if c in cs {
        var k :| 0 <= k < |cs| && cs[k] == c;
        assert moved[|prior| + k] == c;
      } else {
        var q := d.nodes[c].parent.value;
        assert q != node;
        if q == newParent {
          var j :| 0 <= j < |prior| && prior[j] == c;
          assert moved[j] == c;
        }
      }
    }
  }

  lemma ReparentDistinct(d: Dom, d': Dom, node: NodeId, newParent: NodeId)
    requires Valid(d) && node in d.nodes && newParent in d.nodes && node != newParent && Reparented(d, d', node, newParent)
    ensures ChildrenDistinct(d')
  {
    var cs := d.nodes[node].children;
    var prior := d.nodes[newParent].children;
    ListedParents(d);
    assert forall x :: x in prior ==> x !in cs;
    NoDupConcat(prior, cs);
  }

  /** `append_doctype_to_document`: a new doctype node becomes the document's last child. */
  function AppendDoctypeToDocument(d: Dom, name: string, publicId: string, systemId: string): (r: Result<Dom, Panic>)
    requires Closed(d)
    ensures r.Success? && d.nodes.Keys <= r.value.nodes.Keys
    ensures var kids := r.value.nodes[d.document].children;
            && |kids| == |d.nodes[d.document].children| + 1
            && kids[..|kids| - 1] == d.nodes[d.document].children
            && var n := kids[|kids| - 1];
               && n !in d.nodes && r.value.nodes.Keys == d.nodes.Keys + {n}
               && r.value.nodes[n] == Node(Doctype(name, publicId, systemId), Some(d.document), [])
    ensures Relinked(d, r.value, {}, {d.document})
  {
    var (d1, n) := NewNode(d, Doctype(name, publicId, systemId));
    AppendChild(d1, d.document, n)
  }

  /** Appending the doctype keeps the invariant. */
  lemma AppendDoctypeToDocumentValid(d: Dom, name: string, publicId: string, systemId: string)
    requires Valid(d)
    ensures Valid(AppendDoctypeToDocument(d, name, publicId, systemId).value)
  {
    var (d1, n) := NewNode(d, Doctype(name, publicId, systemId));
    NewNodeValid(d, Doctype(name, publicId, systemId));
    AppendChildValid(d1, d.document, n);
  }
}

=== FILE: seqs.dfy ===
/** Small sequence helpers shared by the interner and the DOM arena. */
module Seqs {
  import opened Wrappers

  /** The first position of `x` in `s`, as `Iterator::position` finds it. */
  function IndexOf<T(==)>(s: seq<T>, x: T): (r: Option<nat>)
    ensures r.Some? ==> r.value < |s| && s[r.value] == x
    ensures r.Some? ==> forall j :: 0 <= j < r.value ==> s[j] != x
    ensures r.None? <==> x !in s
  {
    if |s| == 0 then None
    else if s[0] == x then Some(0)
    else
      match IndexOf(s[1..], x)
      case None => None
      case Some(k) => Some(k + 1)
  }

  /** No element occurs twice. */
  predicate NoDup<T(==)>(s: seq<T>) {
    forall i, j :: 0 <= i < j < |s| ==> s[i] != s[j]
  }

  /** `Vec::remove(i)`: drops the element at `i`, keeping the order of the rest. */
  function RemoveAt<T>(s: seq<T>, i: nat): (r: seq<T>)
    requires i < |s|
    ensures |r| == |s| - 1
    ensures forall j :: 0 <= j < i ==> r[j] == s[j]
    ensures forall j :: i <= j < |r| ==> r[j] == s[j + 1]
  {
    s[..i] + s[i + 1..]
  }

  /** `Vec::insert(i, x)`: puts `x` at position `i`, shifting the rest right. */
  function InsertAt<T>(s: seq<T>, i: nat, x: T): (r: seq<T>)
    requires i <= |s|
    ensures |r| == |s| + 1 && r[i] == x
    ensures forall j :: 0 <= j < i ==> r[j] == s[j]
    ensures forall j :: i < j < |r| ==> r[j] == s[j - 1]
  {
    s[..i] + [x] + s[i..]
  }

  /** With no duplicates, an element present occurs exactly once. */
  lemma {:induction false} NoDupCountsOnce<T>(s: seq<T>, x: T)
    requires NoDup(s)
    ensures multiset(s)[x] == (if x in s then 1 else 0)
  {
    if |s| == 0 {
    } else {
      assert s == [s[0]] + s[1..];
      assert NoDup(s[1..]) by {
        forall i, j | 0 <= i < j < |s[1..]| ensures s[1..][i] != s[1..][j] {
          assert s[1..][i] == s[i + 1] && s[1..][j] == s[j + 1];
        }
      }
      NoDupCountsOnce(s[1..], x);
      if s[0] == x {
        assert x !in s[1..] by {
          forall k | 0 <= k < |s[1..]| ensures s[1..][k] != x {
            assert s[1..][k] == s[k + 1];
          }
        }
      }
    }
  }

  /** Removing one position keeps a duplicate-free sequence duplicate-free and drops exactly that element. */
  lemma RemoveAtNoDup<T>(s: seq<T>, i: nat)
    requires i < |s| && NoDup(s)
    ensures NoDup(RemoveAt(s, i))
    ensures s[i] !in RemoveAt(s, i)
    ensures forall y :: y in RemoveAt(s, i) <==> y in s && y != s[i]
  {
    var r := RemoveAt(s, i);
    forall y | y in s && y != s[i] ensures y in r {
      var k :| 0 <= k < |s| && s[k] == y;
      if k < i { assert r[k] == y; } else { assert r[k - 1] == y; }
    }
  }

  /** Joining two duplicate-free sequences with no element in common gives a duplicate-free sequence. */
  lemma NoDupConcat<T>(a: seq<T>, b: seq<T>)
    requires NoDup(a) && NoDup(b)
    requires forall x :: x in a ==> x !in b
    ensures NoDup(a + b)
  {
    forall i, j | 0 <= i < j < |a + b| ensures (a + b)[i] != (a + b)[j] {
      if i < |a| && j >= |a| {
        assert (a + b)[i] == a[i] && (a + b)[j] == b[j - |a|];
        assert a[i] in a;
      } else if i >= |a| {
        assert (a + b)[i] == b[i - |a|] && (a + b)[j] == b[j - |a|];
      }
    }
  }
}

=== FILE: text.dfy ===
/** The string primitives the original relies on: `str::trim`, which strips
    characters with the Unicode White_Space property from both ends, and
    lowercasing, modelled for ASCII letters only. */
module Text {

  /** The characters with the Unicode White_Space property. */
  const WhitespaceChars: set<char> := {
    '\t', '\n', '\U{0B}', '\U{0C}', '\r', ' ', '\U{85}', '\U{A0}', '\U{1680}',
    '\U{2000}', '\U{2001}', '\U{2002}', '\U{2003}', '\U{2004}', '\U{2005}',
    '\U{2006}', '\U{2007}', '\U{2008}', '\U{2009}', '\U{200A}',
    '\U{2028}', '\U{2029}', '\U{202F}', '\U{205F}', '\U{3000}'
  }

  /** Rust's `char::is_whitespace`. */
  predicate IsWhitespace(c: char) {
    c in WhitespaceChars
  }

  /** Letters, digits and the punctuation of MIME types and keywords: none is
      whitespace and none is an upper-case letter. */
  predicate PlainChar(c: char) {
    ('a' <= c <= 'z') || ('0' <= c <= '9') || c == '/' || c == '+' || c == '-' || c == '.'
  }

  predicate AllPlain(s: string) {
    forall i :: 0 <= i < |s| ==> PlainChar(s[i])
  }

  predicate AllWhitespace(s: string) {
    forall i :: 0 <= i < |s| ==> IsWhitespace(s[i])
  }

  /** The first index at or after `i` that is not whitespace (or `|s|`). */
  function SkipLeading(s: string, i: nat): (a: nat)
    requires i <= |s|
    ensures i <= a <= |s|
    ensures forall k :: i <= k < a ==> IsWhitespace(s[k])
    ensures a == |s| || !IsWhitespace(s[a])
    decreases |s| - i
  {
    if i < |s| && IsWhitespace(s[i]) then SkipLeading(s, i + 1) else i
  }

  /** The end, at or below `j` and not below `lo`, once trailing whitespace is dropped. */
  function SkipTrailing(s: string, lo: nat, j: nat): (b: nat)
    requires lo <= j <= |s|
    ensures lo <= b <= j
    ensures forall k :: b <= k < j ==> IsWhitespace(s[k])
    ensures b == lo || !IsWhitespace(s[b - 1])
    decreases j
  {
    if j > lo && IsWhitespace(s[j - 1]) then SkipTrailing(s, lo, j - 1) else j
  }

  /** `r` is the slice of `s` at `a` with only whitespace around it. */
  ghost predicate WhitespaceAround(s: string, r: string, a: int) {
    && 0 <= a <= |s| - |r| && r == s[a..a + |r|]
    && (forall i :: 0 <= i < a ==> IsWhitespace(s[i]))
    && (forall i :: a + |r| <= i < |s| ==> IsWhitespace(s[i]))
  }

  /** Neither starts nor ends with whitespace. */
  predicate Tight(r: string) {
    r == [] || (!IsWhitespace(r[0]) && !IsWhitespace(r[|r| - 1]))
  }

  /** `str::trim`: the inner slice left once leading and trailing whitespace is dropped. */
  function Trim(s: string): (r: string)
    ensures |r| <= |s| && Tight(r)
  {
    var a := SkipLeading(s, 0);
    var b := SkipTrailing(s, a, |s|);
    s[a..b]
  }

  /** The trim is a slice of the input with only whitespace around it;
      returns where it starts. */
  lemma TrimAround(s: string) returns (a: nat)
    ensures WhitespaceAround(s, Trim(s), a)
  {
    a := SkipLeading(s, 0);
    var b := SkipTrailing(s, a, |s|);
    assert Trim(s) == s[a..b];
  }

  /** The trim is the only tight slice with just whitespace around it. */
  lemma TrimUnique(s: string, r: string, a: int)
    requires WhitespaceAround(s, r, a) && Tight(r)
    ensures Trim(s) == r
  {
    var t := Trim(s);
    var a' := TrimAround(s);
    if |r| > 0 && |t| > 0 {
      assert s[a] == r[0] && s[a'] == t[0];
      assert s[a + |r| - 1] == r[|r| - 1] && s[a' + |t| - 1] == t[|t| - 1];
      assert a == a';
      assert |r| == |t|;
    }
  }

  /** Lowercases one character; only ASCII letters change. */
  function LowerChar(c: char): (d: char)
  {
    if 'A' <= c <= 'Z' then (c as int + 32) as char else c
  }

  /** Lowercases a string letter by letter (ASCII only). */
  function Lower(s: string): (r: string)
    ensures |r| == |s|
    ensures forall i :: 0 <= i < |s| ==> r[i] == LowerChar(s[i])
  {
    seq(|s|, i requires 0 <= i < |s| => LowerChar(s[i]))
  }

  /** A string without upper-case ASCII letters is its own lowercase. */
  lemma LowerNoUpper(s: string)
    requires forall i :: 0 <= i < |s| ==> !('A' <= s[i] <= 'Z')
    ensures Lower(s) == s
  {
  }

  /** Lowercasing twice is lowercasing once. */
  lemma LowerIdempotent(s: string)
    ensures Lower(Lower(s)) == Lower(s)
  {
  }

  /** Lowercasing commutes with concatenation. */
  lemma LowerConcat(s: string, t: string)
    ensures Lower(s + t) == Lower(s) + Lower(t)
  {
  }

  /** Whitespace is never an upper-case letter, so lowercasing leaves it alone. */
  lemma LowerWhitespace(w: string)
    requires AllWhitespace(w)
    ensures Lower(w) == w && AllWhitespace(Lower(w))
  {
  }

  /** A plain word is its own trim and its own lowercase. */
  lemma PlainIsTrimmedLower(s: string)
    requires AllPlain(s)
    ensures Trim(s) == s && Lower(s) == s
  {
    if |s| > 0 {
      assert PlainChar(s[0]) && PlainChar(s[|s| - 1]);
    }
    TrimStable(s);
    LowerNoUpper(s);
  }

  /** A string with neither leading nor trailing whitespace is its own trim. */
  lemma TrimStable(s: string)
    requires Tight(s)
    ensures Trim(s) == s
  {
    TrimUnique(s, s, 0);
  }

  /** Surrounding whitespace does not change the trim. */
  lemma TrimIgnoresSurroundingWhitespace(w1: string, s: string, w2: string)
    requires AllWhitespace(w1) && AllWhitespace(w2)
    ensures Trim(w1 + s + w2) == Trim(s)
  {
    var r := Trim(s);
    var a := TrimAround(s);
    var u := w1 + s + w2;
    forall i | 0 <= i < |w1| + a ensures IsWhitespace(u[i]) {
      if i >= |w1| { assert u[i] == s[i - |w1|]; }
    }
    forall i | |w1| + a + |r| <= i < |u| ensures IsWhitespace(u[i]) {
      if i < |w1| + |s| { assert u[i] == s[i - |w1|]; }
    }
    assert u[|w1| + a..|w1| + a + |r|] == r;
    TrimUnique(u, r, |w1| + a);
  }
}

=== FILE: wire.dfy ===
/** The flat wire document the parser hands to the tree assembler: nodes in an
    array that refer to one another by position and to strings by position in
    a shared table. The node-type numbers are the `nodeType` constants of
    section 4.4 ("Interface Node") of the WHATWG DOM Standard. */
module Wire {
  import opened Wrappers

  type byte = x: int | 0 <= x < 256

  datatype WireNodeType =
    | Element
    | Attribute
    | Text
    | CData
    | EntityReference
    | Entity
    | ProcessingInstruction
    | Comment
    | Document
    | DocumentType
    | DocumentFragment
    | Notation

  /** The `u8` discriminant. */
  function Repr(t: WireNodeType): (b: byte)
    ensures 1 <= b <= 12
  {
    match t
    case Element => 1
    case Attribute => 2
    case Text => 3
    case CData => 4
    case EntityReference => 5
    case Entity => 6
    case ProcessingInstruction => 7
    case Comment => 8
    case Document => 9
    case DocumentType => 10
    case DocumentFragment => 11
    case Notation => 12
  }

  /** Decoding a discriminant; only 1 to 12 name a node type. */
  function FromRepr(b: byte): (r: Option<WireNodeType>)
    ensures r.Some? <==> 1 <= b <= 12
  {
    if b == 1 then Some(Element)
    else if b == 2 then Some(Attribute)
    else if b == 3 then Some(Text)
    else if b == 4 then Some(CData)
    else if b == 5 then Some(EntityReference)
    else if b == 6 then Some(Entity)
    else if b == 7 then Some(ProcessingInstruction)
    else if b == 8 then Some(Comment)
    else if b == 9 then Some(Document)
    else if b == 10 then Some(DocumentType)
    else if b == 11 then Some(DocumentFragment)
    else if b == 12 then Some(Notation)
    else None
  }

  /** The derived default. */
  function DefaultNodeType(): WireNodeType {
    Element
  }

  /** Encoding then decoding is the identity, and so is decoding then encoding. */
  lemma ReprRoundTrip(t: WireNodeType, b: byte)
    ensures FromRepr(Repr(t)) == Some(t)
    ensures FromRepr(b).Some? ==> Repr(FromRepr(b).value) == b
  {
  }

  /** Distinct node types have distinct numbers, and together they use 1 to 12. */
  lemma ReprBijective(s: WireNodeType, t: WireNodeType, b: byte)
    ensures Repr(s) == Repr(t) ==> s == t
    ensures 1 <= b <= 12 ==> exists u :: Repr(u) == b
  {
    ReprRoundTrip(s, b);
    ReprRoundTrip(t, b);
    if 1 <= b <= 12 {
      assert Repr(FromRepr(b).value) == b;
    }
  }

  /** The DOM Standard's `nodeType` constants, all twelve of them, including
      the historical ones the parser never produces. */
  lemma DomStandardNumbers()
    ensures Repr(Element) == 1 && Repr(Attribute) == 2 && Repr(Text) == 3
    ensures Repr(CData) == 4 && Repr(EntityReference) == 5 && Repr(Entity) == 6
    ensures Repr(ProcessingInstruction) == 7 && Repr(Comment) == 8 && Repr(Document) == 9
    ensures Repr(DocumentType) == 10 && Repr(DocumentFragment) == 11 && Repr(Notation) == 12
    ensures Repr(DefaultNodeType()) == 1
  {
  }

  /** An attribute: namespace URL, name and value as string indices; only the namespace is optional. */
  datatype WireAttr = WireAttr(ns: Option<nat>, name: nat, value: nat)

  /** A node record; links are node indices, names and values string indices. */
  datatype WireNode = WireNode(
    id: nat,
    nodeType: WireNodeType,
    name: Option<nat>,
    value: Option<nat>,
    parent: Option<nat>,
    firstChild: Option<nat>,
    nextSibling: Option<nat>,
    attrs: Option<seq<WireAttr>>)

  datatype WireDoc = WireDoc(
    contentType: string,
    quirksMode: string,
    strings: seq<string>,
    nodes: seq<WireNode>)

  predicate IndexIn(i: Option<nat>, n: nat) {
    i.Some? ==> i.value < n
  }

  predicate AttrIn(a: WireAttr, strings: nat) {
    IndexIn(a.ns, strings) && a.name < strings && a.value < strings
  }

  /** Every node index the record holds is below `nodes`. */
  predicate LinksIn(w: WireNode, nodes: nat) {
    IndexIn(w.parent, nodes) && IndexIn(w.firstChild, nodes) && IndexIn(w.nextSibling, nodes)
  }

  /** Every string index the record holds is below `strings`. */
  predicate StringsIn(w: WireNode, strings: nat) {
    && IndexIn(w.name, strings) && IndexIn(w.value, strings)
    && (w.attrs.Some? ==> forall k :: 0 <= k < |w.attrs.value| ==> AttrIn(w.attrs.value[k], strings))
  }

  /** Every index the record holds points into the tables. */
  predicate NodeIn(w: WireNode, nodes: nat, strings: nat) {
    LinksIn(w, nodes) && StringsIn(w, strings)
  }

  /** A well-formed document: every present index is within `strings` or `nodes`. */
  predicate WellFormed(doc: WireDoc) {
    forall k :: 0 <= k < |doc.nodes| ==> NodeIn(doc.nodes[k], |doc.nodes|, |doc.strings|)
  }

  /** The string an index names, when the index is present and in range. */
  predicate Resolves(strings: seq<string>, i: Option<nat>, s: string) {
    i.Some? && i.value < |strings| && strings[i.value] == s
  }

  /** An attribute with its indices replaced by strings. */
  datatype ResolvedAttr = ResolvedAttr(ns: Option<string>, name: string, value: string)

  predicate AttrResolves(strings: seq<string>, a: WireAttr, r: ResolvedAttr) {
    && (if r.ns.None? then a.ns.None? else Resolves(strings, a.ns, r.ns.value))
    && Resolves(strings, Some(a.name), r.name)
    && Resolves(strings, Some(a.value), r.value)
  }

  /** The attribute list resolves, entry by entry and in order, to `rs`. */
  predicate AttrsResolve(strings: seq<string>, wa: seq<WireAttr>, rs: seq<ResolvedAttr>) {
    |wa| == |rs| && forall k :: 0 <= k < |wa| ==> AttrResolves(strings, wa[k], rs[k])
  }

  /** Resolution survives growth of the string table at its end. */
  lemma AttrsResolveGrow(strings: seq<string>, more: seq<string>, wa: seq<WireAttr>, rs: seq<ResolvedAttr>)
    requires AttrsResolve(strings, wa, rs) && strings <= more
    ensures AttrsResolve(more, wa, rs)
  {
    forall k | 0 <= k < |wa| ensures AttrResolves(more, wa[k], rs[k]) {
      assert AttrResolves(strings, wa[k], rs[k]);
    }
  }
}

=== FILE: wrappers.dfy ===
/** Failure-compatible wrappers used across the model: `Option` for Rust's
    `Option<T>`, `Result` for Rust's `Result<T, E>` and for operations whose
    failure in the original is a panic. */
module Wrappers {

  datatype Option<+T> = None | Some(value: T) {

    /** Returns the value, or `default` when there is none. */
    function GetOr(default: T): T {
      match this
      case Some(v) => v
      case None => default
    }
  }

  datatype Result<+T, +E> = Success(value: T) | Failure(error: E) {

    predicate IsFailure() {
      Failure?
    }

    function PropagateFailure<U>(): Result<U, E>
      requires Failure?
    {
      Failure(error)
    }

    function Extract(): T
      requires Success?
    {
      value
    }
  }
}
